=== FILE: README.md ===
# Cultiverse Quest client rules in Dafny

This project models the client-side rules of the Cultiverse Quest web front end.
Users create "cults", join them and manage them. Each core component gets one
Dafny module:

- `FilteredCults` is the dashboard's search, type and tab filter.
- `CreateCultChat` is the guided create-cult chat. `InputSection` and the `CreateCult` page run the same step machine.
- `CultForm` holds the create-cult form's schema and its insert payload.
- `CultCard` holds a cult card's action and badge tables.
- `SiteUrl` is `getURL`.
- `ImageUpload` covers the profile and cult image upload handlers.
- `AgentUpload` is the agent configuration upload.
- `Overseer` is the Overseer's scripted conversation.
- `JoinInvite` is invite redemption on the join page.
- `Links` is the links card.
- `NameField` is the name field's AI button.
- `Common` holds the JavaScript string built-ins the modules share: `includes`, `startsWith`, `endsWith`, `trim`, `toLowerCase`, `join`, `split` and a number's decimal text.

The modelling follows a few rules:

- A handler that updates component state becomes a method of a class whose fields are that state.
- In `CreateCultChat`, `Links`, `NameField`, `JoinInvite` and `AgentUpload`, a handler's `ensures` ties the new state to a pure transition function. The properties are proved about that function, as its own `ensures` or as lemmas.
- In `ImageUpload` and `Overseer`, a handler's `ensures` states each field's new value directly. The Overseer handlers also state that the step they reach is the one `StepAfter` gives.
- Some lemmas are about sequences of user events. These replay the transition functions over the events.
- Every backend answer is an input:
  - the success of an insert, update or storage upload is a `bool`;
  - the AI helper's result is an `Option`;
  - the clock and a stored file's public URL are plain values.

## Model

| member | source | states |
|---|---|---|
| Common.Lower | src/hooks/useFilteredCults.ts:11-12 | lower-casing keeps the length and maps every character on its own |
| Common.LowerIdempotent | src/hooks/useFilteredCults.ts:11-12 | lower-casing twice is lower-casing once |
| Common.Contains | src/hooks/useFilteredCults.ts:11-12 | `includes` holds exactly when the substring occurs at some position |
| Common.BlankIffTrimmedEmpty | src/components/create-cult/InputSection.tsx:78 | text is blank exactly when `trim` leaves nothing of it |
| Common.TrimStart | src/components/dashboard/cult-form/OverseerConversation.tsx:50 | the result is a suffix that does not start with white space, and everything dropped is white space |
| Common.TrimEnd | src/components/dashboard/cult-form/OverseerConversation.tsx:50 | the result is a prefix that does not end with white space, and everything dropped is white space |
| Common.ContainsEmpty | src/hooks/useFilteredCults.ts:5-11 | the empty query is contained in every string |
| Common.JoinAppend | src/components/dashboard/sections/agents/AgentUploader.tsx:36-39 | joining two non-empty lists is joining each and putting one separator between them |
| Common.Join | src/components/dashboard/sections/agents/AgentUploader.tsx:33 | a join is as long as all parts plus one separator between neighbours |
| Common.SplitOn | src/components/dashboard/sections/profile/ImageUploader.tsx:51 | `split` on one character always gives at least one piece |
| Common.SplitLastPiece | src/components/dashboard/sections/profile/ImageUploader.tsx:51 | the piece `pop` takes is a suffix without the separator, preceded by the last separator, or the whole string when there is none |
| Common.LastPieceUnique | src/components/dashboard/sections/profile/ImageUploader.tsx:51 | only one string is the text after the last separator |
| Common.SplitJoin | src/components/dashboard/sections/agents/AgentUploader.tsx:33 | splitting a join on a separator no part contains gives the parts back |
| Common.DecimalString | src/components/dashboard/sections/profile/ImageUploader.tsx:52 | a timestamp's text is non-empty decimal digits without a leading zero, and the digits read back as the timestamp |
| FilteredCults.FilterSeq | src/hooks/useFilteredCults.ts:9-22 | the result is an order-preserving subsequence; every kept cult passes all three tests; each cult keeps its multiplicity when it passes and is dropped otherwise |
| FilteredCults.FilterCults | src/hooks/useFilteredCults.ts:9-22 | an undefined list stays undefined; a cult is kept iff it is in the list and matches search, type and tab; a selected type and the my-cults tab constrain every result |
| FilteredCults.DefaultFiltersKeepAll | src/hooks/useFilteredCults.ts:5-11 | the initial filter values return the input list unchanged |
| FilteredCults.SearchMatching | src/hooks/useFilteredCults.ts:11-12 | the search ignores ASCII case in query and name; with a null description only the name can match |
| FilteredCults.SignedOutMyCultsIsEmpty | src/hooks/useFilteredCults.ts:18-19 | with no user id the my-cults tab is empty, even for cults whose founder is null |
| CultForm.Validate | src/components/dashboard/cult-form/FormFields.tsx:14-33 | a field is reported iff its check fails; no error iff the whole form is valid; name under 2 and description under 10 characters are reported; the Twitter handle never is; a present empty custom URL is |
| CultForm.ThemeColorShape | src/components/dashboard/cult-form/FormFields.tsx:21-23 | a colour is valid iff it is `#` and exactly 3 or 6 hex digits |
| CultForm.DefaultValuesRejected | src/components/dashboard/cult-form/useCreateCult.ts:11-18 | the default colour is a valid six-digit colour; the defaults fail on name, description and the empty custom URL |
| CultForm.OnSubmit | src/components/dashboard/cult-form/useCreateCult.ts:21-56 | name, description, colour and type are copied; the handle and URL are included iff non-empty; `onSuccess` runs iff the insert succeeds |
| CultForm.SubmitForm | src/components/dashboard/CreateCultForm.tsx:11-15 | a row is built iff the values pass the schema, and then its custom URL, when present, is a slug |
| CultCard.CardAction | src/components/dashboard/cult-card/CultCardActions.tsx:28-107 | each of the six actions is chosen exactly under its condition in the early-return order, with its target or cult id |
| CultCard.FounderAlwaysManages | src/components/dashboard/cult-card/CultCardActions.tsx:28-38 | a founder's action does not depend on the other flags |
| CultCard.Badges | src/components/dashboard/cult-card/CultCardBadges.tsx:15-31 | 2 or 3 badges, in type, role, join order; the type, join and role labels are chosen as the source does, and Founder wins over Member |
| SiteUrl.SchemeFor | src/utils/url.ts:7 | `http://` iff the base contains `localhost`, else `https://` |
| SiteUrl.TrailingSlashOfBase | src/utils/url.ts:7-10 | after the scheme the text ends in `/` iff the base is empty or ends in `/` |
| SiteUrl.LocalDefaultUrl | src/utils/url.ts:2-10 | the default base gets a second scheme: `http://http://localhost:8080/` |
| SiteUrl.GetURL | src/utils/url.ts:1-13 | the result is scheme, base and one `/` exactly when the base lacks one; it always ends in `/` |
| CreateCultChat.ParseCultType | src/components/create-cult/InputSection.tsx:94 | the type is `agent` iff the lower-cased answer is `agent`, else `dev` |
| CreateCultChat.Submitted | src/components/create-cult/InputSection.tsx:77-142 | a blank input changes nothing; otherwise the step advances by one up to complete, the log gains the tagged user message then a system reply, only the step's field changes, the AI flag is off; the name step replies by asking for the description, the description step by asking for the type, the type step sets the type to `ParseCultType` of the answer (`agent` iff the lower-cased answer is `agent`, else `dev`) and replies with the insert's outcome |
| CreateCultChat.CultTypeOrDev | src/components/create-cult/InputSection.tsx:53 | the stored type is `dev` exactly when the generated one is missing, empty or `dev`, and a non-empty generated type is kept |
| CreateCultChat.Generated | src/components/create-cult/InputSection.tsx:36-75 | an empty name changes nothing; a failed generation only clears the busy flag; a result keeps the old log and adds four messages, the second with the description, the third with the type as a template shows it and the last from the system; it sets description and type, and moves to the type step |
| CreateCultChat.MissingTypeShownUndefined | src/components/create-cult/InputSection.tsx:53-60 | a result without a type is reported as `Type: undefined` while the form gets `dev` |
| CreateCultChat.ThreeAnswersComplete | src/pages/CreateCult.tsx:81-146 | three non-blank answers from the opening state reach complete with the typed name, description and parsed type and 7 messages |
| CreateCultChat.AIButtonNeverShown | src/components/create-cult/InputSection.tsx:90-141 | from a state without the AI button no sequence of typing, submits and generations shows it |
| CreateCultChat.Conversation.constructor | src/pages/CreateCult.tsx:26-38 | the page opens with the welcome message, the name step and an empty form of type `dev` |
| CreateCultChat.Conversation.SetInput | src/pages/CreateCult.tsx:193 | only the input text changes |
| CreateCultChat.Conversation.HandleSubmit | src/components/create-cult/InputSection.tsx:77-142 | the new state is `Submitted`; a row is sent iff a non-blank type answer is given, with the updated fields and colour `#2D1B69`; the redirect is scheduled iff that insert succeeds. The page's own copy (src/pages/CreateCult.tsx:81-146) uses `supabase` without importing it, so there the call at line 120 throws inside the `try` and `insertOk` is always false |
| CreateCultChat.Conversation.HandleGenerateWithAI | src/pages/CreateCult.tsx:40-79 | the new state is `Generated` |
| CreateCultChat.Conversation.InputAreaShown | src/pages/CreateCult.tsx:167 | the input area is rendered iff the step is before complete |
| ImageUpload.CheckFile | src/components/dashboard/sections/profile/ImageUploader.tsx:31-47 | not an image iff the MIME type lacks `image/`; too large iff an image over 5 MiB; accepted otherwise |
| ImageUpload.SizeBound | src/components/dashboard/sections/profile/ImageUploader.tsx:40 | exactly 5 MiB is accepted and one byte more is not; the type check comes first |
| ImageUpload.Extension | src/components/dashboard/sections/profile/ImageUploader.tsx:51 | the extension is the text after the last dot, or the whole name without a dot |
| ImageUpload.ExtensionIsLastPiece | src/components/dashboard/sections/profile/ImageUploader.tsx:51 | the extension is the last piece of `split('.')` |
| ImageUpload.ExtensionAfterDot | src/components/dashboard/sections/profile/ImageUploader.tsx:51-52 | whatever precedes the last dot does not affect the extension |
| ImageUpload.StorageName | src/components/dashboard/sections/profile/ImageUploader.tsx:52 | the stored name is the owner, `_`, the kind, `_`, the clock in decimal (`DecimalString`, whose value is the clock and which has no leading zero) and `.` with the picked file's extension (`Extension`); so it starts with owner, kind and two underscores and ends with the extension |
| ImageUpload.StorageNameKeepsExtension | src/components/dashboard/sections/profile/ImageUploader.tsx:51-52 | the stored name has the picked file's extension |
| ImageUpload.ProfileColumn | src/components/dashboard/sections/profile/ImageUploader.tsx:66 | `profile_image_url` iff the kind is profile, `banner_image_url` iff banner |
| ImageUpload.CultColumn | src/components/dashboard/sections/ImageManagement.tsx:62 | `logo_url` iff logo, `banner_url` iff banner |
| ImageUpload.ProfileImageUploader.constructor | src/components/dashboard/sections/profile/ImageUploader.tsx:23 | not uploading, nothing stored |
| ImageUpload.ProfileImageUploader.HandleImageUpload | src/components/dashboard/sections/profile/ImageUploader.tsx:27-88 | no file or a rejected file changes nothing; an accepted file is stored under the generated name iff the upload succeeds; the row's column changes iff upload and update both succeed; the busy flag ends false |
| ImageUpload.CultImageManager.constructor | src/components/dashboard/sections/ImageManagement.tsx:14 | not uploading, nothing stored |
| ImageUpload.CultImageManager.HandleImageUpload | src/components/dashboard/sections/ImageManagement.tsx:18-85 | same guards, naming, upload-then-update order and busy flag for a cult's logo or banner |
| AgentUpload.EncodeSecrets | src/components/dashboard/sections/agents/AgentUploader.tsx:51-55 | the secret keys are kept one to one and each value is its JSON text; no secrets give an empty map |
| AgentUpload.BuildAgentRow | src/components/dashboard/sections/agents/AgentUploader.tsx:27-65 | the required-field error iff name, provider or bio is missing; missing adjectives or style fail next; otherwise the row has the cult id, name, the bio joined by spaces, adjectives then style words joined by commas, the knowledge, and capabilities holding the topics, provider, image provider, examples, style, the voice from the settings and the secrets encoded one to one |
| AgentUpload.EmptyBioAccepted | src/components/dashboard/sections/agents/AgentUploader.tsx:28-33 | an empty bio passes the check and gives an empty description |
| AgentUpload.PersonalityParts | src/components/dashboard/sections/agents/AgentUploader.tsx:36-39 | the personality is the adjectives, then the style words, with one `, ` between the groups |
| AgentUpload.DescriptionOfBio | src/components/dashboard/sections/agents/AgentUploader.tsx:33 | the description's length is the bio's total plus one space between entries, and entries without spaces split back out of it |
| AgentUpload.AgentUploader.constructor | src/components/dashboard/sections/agents/AgentUploader.tsx:15 | not uploading, no rows, no success calls |
| AgentUpload.AgentUploader.HandleFileUpload | src/components/dashboard/sections/agents/AgentUploader.tsx:18-84 | no file changes nothing; otherwise the busy flag ends false, a row is inserted and `onSuccess` called iff the row builds and the insert succeeds, and the error says why not |
| Overseer.FirstOccurrence | src/components/dashboard/cult-form/OverseerConversation.tsx:30 | the position found is an occurrence and no earlier position is |
| Overseer.Substitution | src/components/dashboard/cult-form/OverseerConversation.tsx:30 | a replacement without `$` is inserted as it is; `$&` inserts the match and `$$` one dollar sign |
| Overseer.ReplaceFirst | src/components/dashboard/cult-form/OverseerConversation.tsx:30 | text without the pattern is unchanged |
| Overseer.ReplaceFirstAt | src/components/dashboard/cult-form/OverseerConversation.tsx:30 | for any replacement, `$` patterns included, the text before the first occurrence and the text after it (later occurrences included) are kept, and `Substitution`'s text for that occurrence goes in between |
| Overseer.ReplaceFirstPlain | src/components/dashboard/cult-form/OverseerConversation.tsx:30 | with a replacement without `$`, only the first occurrence is replaced, by the replacement itself; the text around it, later occurrences included, is kept |
| Overseer.ThirdLine | src/components/dashboard/cult-form/OverseerConversation.tsx:20-30 | the third line shows a plain name in place of the placeholder; the name `$&` shows the placeholder itself |
| Overseer.PlaceholderInThirdLine | src/components/dashboard/cult-form/OverseerConversation.tsx:23 | the third line's placeholder follows `Ah, ` and occurs nowhere earlier |
| Overseer.SubstitutionAfter | src/components/dashboard/cult-form/OverseerConversation.tsx:30 | `$'` followed by text without `$` expands to the text after the match, then that text |
| Overseer.ThirdLineDollar | src/components/dashboard/cult-form/OverseerConversation.tsx:20-30 | the name `$$` shows a single `$` in place of the placeholder |
| Overseer.ThirdLineAfter | src/components/dashboard/cult-form/OverseerConversation.tsx:20-30 | a name of `$'` followed by a plain name shows the rest of the line, then that name, then the rest of the line again |
| Overseer.ReplaceSpaceRuns | src/components/dashboard/cult-form/OverseerConversation.tsx:69 | a space-free replacement leaves no white space; text without white space is unchanged; a replacement of at most one character never lengthens |
| Overseer.NothingToReplace | src/components/dashboard/cult-form/OverseerConversation.tsx:69 | text without white space is copied whatever precedes it |
| Overseer.RunsLeaveNoSpace | src/components/dashboard/cult-form/OverseerConversation.tsx:69 | with a space-free replacement the scan leaves no white space |
| Overseer.RunsNoLonger | src/components/dashboard/cult-form/OverseerConversation.tsx:69 | with a replacement of at most one character the scan never lengthens |
| Overseer.RunContinues | src/components/dashboard/cult-form/OverseerConversation.tsx:69 | white space continuing a run adds nothing |
| Overseer.ReplaceRunsAppend | src/components/dashboard/cult-form/OverseerConversation.tsx:69 | after a character that is not white space the scan starts afresh |
| Overseer.RunAtStart | src/components/dashboard/cult-form/OverseerConversation.tsx:69 | a leading run becomes exactly one replacement |
| Overseer.RunBetween | src/components/dashboard/cult-form/OverseerConversation.tsx:69 | each maximal white-space run becomes exactly one replacement, and the text on either side is replaced on its own |
| Overseer.ReplaceSpaceRunsIdempotent | src/components/dashboard/cult-form/OverseerConversation.tsx:69 | replacing white-space runs twice equals doing it once |
| Overseer.RemoveSpaces | src/components/dashboard/cult-form/OverseerConversation.tsx:78 | removing white space never lengthens the text and leaves none |
| Overseer.ReplaceByNothingRemoves | src/components/dashboard/cult-form/OverseerConversation.tsx:78 | replacing each white-space run by nothing is removing all white space |
| Overseer.CustomUrl | src/components/dashboard/cult-form/OverseerConversation.tsx:69 | the URL has no white space, is no longer than the name, and is a fixed point of the replacement |
| Overseer.TwitterHandle | src/components/dashboard/cult-form/OverseerConversation.tsx:78 | the handle is the lower-cased name with all white space removed |
| Overseer.LowerRun | src/components/dashboard/cult-form/OverseerConversation.tsx:69 | lower-casing leaves a white-space run as it is |
| Overseer.CustomUrlRuns | src/components/dashboard/cult-form/OverseerConversation.tsx:69 | in the URL each maximal white-space run of the name is one hyphen, and the text on either side is derived on its own |
| Overseer.LeadingRunBecomesHyphen | src/components/dashboard/cult-form/OverseerConversation.tsx:69 | a leading white-space run becomes exactly one leading hyphen before the rest's URL |
| Overseer.TrailingRunBecomesHyphen | src/components/dashboard/cult-form/OverseerConversation.tsx:69 | a trailing white-space run becomes exactly one trailing hyphen after the rest's URL |
| Overseer.SlugCharsOfRuns | src/components/dashboard/cult-form/OverseerConversation.tsx:69 | text of lower-case letters, digits, hyphens and white space becomes slug characters |
| Overseer.CustomUrlIsSlug | src/components/dashboard/cult-form/OverseerConversation.tsx:69 | a non-empty name of letters, digits, hyphens and white space gives a URL that passes the slug rule |
| Overseer.DottedNameNotSlug | src/components/dashboard/cult-form/OverseerConversation.tsx:69 | the name `a.b` keeps its dot and gives a URL that fails the slug rule |
| Overseer.Completion | src/components/dashboard/cult-form/OverseerConversation.tsx:55-83 | `onComplete` is skipped iff the AI path gets no result; both paths keep the name, type `dev` and the derived URL; the manual path fixes description, colour and the space-free handle; the AI path takes the result's fields |
| Overseer.Conversation.constructor | src/components/dashboard/cult-form/OverseerConversation.tsx:12-17 | step 0, empty name and text, nothing shown, no choice yet |
| Overseer.Conversation.TypeText | src/components/dashboard/cult-form/OverseerConversation.tsx:27-40 | the shown text ends as the line with its first placeholder replaced by the name; typing is over and the input shown |
| Overseer.Conversation.ShowStep | src/components/dashboard/cult-form/OverseerConversation.tsx:42-47 | a step with a line has that line typed out and the input shown; any other step changes nothing; the step is the one `StepAfter` gives for an effect |
| Overseer.Conversation.SetCultName | src/components/dashboard/cult-form/OverseerConversation.tsx:98 | only the name changes, and the step is the one `StepAfter` gives for typing |
| Overseer.Conversation.HandleNameSubmit | src/components/dashboard/cult-form/OverseerConversation.tsx:49-53 | the step becomes 2 iff the name is not blank, and stays otherwise; while the name input is shown this is `StepAfter` for a submit |
| Overseer.Conversation.HandleAIChoice | src/components/dashboard/cult-form/OverseerConversation.tsx:55-83 | the step becomes 3, the choice is recorded, and what reaches `onComplete` is `Completion`; while the choice is shown this is `StepAfter` for a choice |
| Overseer.Conversation.NameInputShown | src/components/dashboard/cult-form/OverseerConversation.tsx:94 | the name input is rendered exactly on step 1 once the line is typed |
| Overseer.Conversation.ChoiceShown | src/components/dashboard/cult-form/OverseerConversation.tsx:111 | the choice buttons are rendered exactly on step 2 once the line is typed |
| Overseer.OpeningStepIsFinal | src/components/dashboard/cult-form/OverseerConversation.tsx:94-127 | from step 0 no sequence of rendered controls and effects changes the step |
| JoinInvite.NextUses | src/pages/Join.tsx:85 | a null counter counts as 0 and the new count is one more |
| JoinInvite.Redeem | src/pages/Join.tsx:45-104 | signed out: the code is remembered and the user sent to sign in; unknown code: nothing changes; a failed insert changes nothing; a failed update keeps the new membership; otherwise the counter rises by one, other invites are untouched and the user is sent to the cult |
| JoinInvite.LimitsIgnored | src/pages/Join.tsx:57-95 | an invite's maximum uses and expiry do not affect redemption |
| JoinInvite.RedeemTwice | src/pages/Join.tsx:73-95 | redeeming twice adds two identical memberships and raises the counter by two |
| JoinInvite.JoinPage.constructor | src/pages/Join.tsx:8-13 | the page holds the route `code`, the stored pending invite, and the given invite and membership tables, unchanged |
| JoinInvite.JoinPage.HandleJoin | src/pages/Join.tsx:45-104 | the new storage and tables and the outcome are `Redeem`'s; navigation follows the outcome |
| Links.Added | src/components/dashboard/sections/LinksSection.tsx:25-41 | an incomplete draft changes nothing; a complete one is appended after the unchanged list and the draft cleared; the multiset gains exactly the draft |
| Links.Generated | src/components/dashboard/sections/LinksSection.tsx:43-52 | a result replaces the list, no result keeps it; the draft is kept |
| Links.DuplicatesAccepted | src/components/dashboard/sections/LinksSection.tsx:25-41 | adding the same link twice puts it in the list twice more |
| Links.InitialLinksAddable | src/components/dashboard/sections/LinksSection.tsx:16-20 | every opening link is complete and can be added again |
| Links.LinksSection.constructor | src/components/dashboard/sections/LinksSection.tsx:16-21 | the three opening links and an empty draft |
| Links.LinksSection.SetDraft | src/components/dashboard/sections/LinksSection.tsx:91-97 | only the draft changes |
| Links.LinksSection.HandleAddLink | src/components/dashboard/sections/LinksSection.tsx:25-41 | the new state is `Added`; success is reported iff the draft is complete |
| Links.LinksSection.HandleGenerateLinks | src/components/dashboard/sections/LinksSection.tsx:43-52 | the new state is `Generated` |
| NameField.Changed | src/components/dashboard/cult-form/fields/NameField.tsx:18-22 | the value is stored; the button flag is set iff it has 2 or more characters |
| NameField.Clicked | src/components/dashboard/cult-form/fields/NameField.tsx:24-34 | without a callback nothing changes; with one the busy flag ends false and the generated flag is set iff the callback completes or was already set |
| NameField.GeneratedIsFinal | src/components/dashboard/cult-form/fields/NameField.tsx:14-51 | once a generation has completed, no typing or clicking shows the button again |
| NameField.ButtonFollowsLastValue | src/components/dashboard/cult-form/fields/NameField.tsx:18-51 | before any successful generation the button is shown iff the last value typed has 2 or more characters |
| NameField.NameFieldWidget.constructor | src/components/dashboard/cult-form/fields/NameField.tsx:14-16 | all three flags off |
| NameField.NameFieldWidget.HandleNameChange | src/components/dashboard/cult-form/fields/NameField.tsx:18-22 | the new state is `Changed` |
| NameField.NameFieldWidget.HandleGenerateClick | src/components/dashboard/cult-form/fields/NameField.tsx:24-34 | the new state is `Clicked`; the callback's error leaves the handler iff it fails |
| NameField.NameFieldWidget.ButtonVisible | src/components/dashboard/cult-form/fields/NameField.tsx:51 | the button is rendered iff its flag is set and nothing was generated |

## Observed behaviour

Each item below names the lemma or contract that states it, except the last, which is about the source text itself:

- The AI button of the create-cult chat is never shown. The name step raises its flag, and the same submit lowers it again (`AIButtonNeverShown`).
- The Overseer conversation never leaves step 0. The name input belongs to step 1, but nothing sets step 1 (`OpeningStepIsFinal`).
- A name containing a `$` pattern is expanded by `replace` in the Overseer's third line. `ReplaceFirstAt` states this for every replacement through `Substitution`, and `ThirdLine`, `ThirdLineDollar` and `ThirdLineAfter` spell out the names `$&`, `$$` and `$'` followed by a plain name.
- The derived custom URL can fail the form's slug rule, for example for `a.b` (`DottedNameNotSlug`).
- The form's own defaults fail validation, because the empty custom URL is present (`DefaultValuesRejected`).
- With neither URL variable defined, `getURL` gives `http://http://localhost:8080/` (`LocalDefaultUrl`).
- Redemption ignores the invite's limits and expiry, and does not guard against joining twice (`LimitsIgnored`, `RedeemTwice`).
- A failed counter update keeps the inserted membership (`Redeem`).
- An upload whose row update fails leaves the stored file behind (`HandleImageUpload`).
- The AI helper's prompt does not ask for `cult_type` (src/hooks/useAIAssistant.ts:10-15), so a result may lack it. The model accepts results with or without it. Without it, `Generated` shows `Type: undefined` and the form falls back to `dev` (`MissingTypeShownUndefined`).
- `src/pages/CreateCult.tsx` calls `supabase` without importing it, and passes an argument to a helper that takes none. The model takes the insert's answer and the helper's result as inputs.

## Left out

- Backend I/O is left out: database queries, storage, authentication sessions and the AI helper. Their answers are inputs, and the public URL of a stored file is an input too.
- Timers and delays are left out: the typing delays, the 500 ms pause and the 2-second redirect delay. The redirect is a flag.
- Toasts, console output, query invalidation and all rendering are left out, except the visibility flags modelled above.
- The join page's `checkInvite` loading effect is not part of this model, and neither are the sign-in flow and the other pages.
- Overseer.Conversation.ShowStep: the effect runs again whenever `cultName` changes. Overlapping `typeText` runs interleave their characters, and that concurrency is not modelled. Each run is treated as completing on its own.
- Common.Lower: `toLowerCase` is modelled on ASCII only. The Unicode case mapping is not modelled.
- NameField.Changed: `value.length` counts UTF-16 code units in the source. The model counts characters, so the two differ for characters outside the Basic Multilingual Plane.
- AgentUpload.BuildAgentRow: the parsed JSON is modelled only as far as the handler inspects it. A `bio` that is present but is not an array is not modelled, and neither is a `style.all` or `adjectives` of another type.
- The join page's route `code` is always defined, so `code || ''` is the code itself.
- CultForm.Validate: zod's `min(2)` and `min(10)` count UTF-16 code units. The model counts characters, so the two differ for characters outside the Basic Multilingual Plane.
- CreateCultChat.Conversation.HandleSubmit: each handler run is atomic in the model. In the source a second submit while the insert is awaited (src/pages/CreateCult.tsx:117-125) would send a second row, and that interleaving is not modelled.
- JoinInvite.Redeem: the counter is read (src/pages/Join.tsx:57-61) and later written as that value plus one (src/pages/Join.tsx:83-86). Concurrent redemptions can lose increments, and that interleaving is not modelled; redemptions run one after another.
- CreateCultChat.Generated and Overseer.Completion: only AI answers that carry a `description` (and, for the Overseer, a `theme_color`) are modelled; an answer missing them cannot be written as a `CultInfo` or a `Concept`, where the source would read `undefined`.
- CreateCultChat: the page and `InputSection` share one model. `InputSection` receives its messages, step and form from its parent, and that wiring is not modelled.

## Design notes

- `ImageUpload.StorageName` renders the clock with `DecimalString`. It relies on `Date.now()` being a non-negative integer.
- The bucket and the updated rows are fields of the handler classes. They stand for the backend tables that the source updates remotely.

=== FILE: agent_upload.dfy ===
/** Linking an AI agent to a cult from an uploaded agent configuration file
    (`AgentUploader`): the parsed configuration is checked, a description, a
    personality and a capabilities record are derived from it, and a row is inserted
    into `cult_agents`. Values the handler only copies are of an opaque type `V`
    (a JSON value). */
module AgentUpload {
  import opened Common

  datatype Style<V> = Style(all: Option<seq<string>>, chat: Option<V>, post: Option<V>)

  datatype Settings<V> = Settings(voice: Option<V>, secrets: Option<map<string, V>>)

  /** The parsed file. `None` is a key missing from the object: nothing is checked
      beyond what the handler itself checks. */
  datatype AgentConfig<V> = AgentConfig(
    name: Option<string>,
    modelProvider: Option<string>,
    imageModelProvider: Option<V>,
    bio: Option<seq<string>>,
    knowledge: Option<V>,
    messageExamples: Option<V>,
    postExamples: Option<V>,
    topics: Option<V>,
    style: Option<Style<V>>,
    adjectives: Option<seq<string>>,
    settings: Option<Settings<V>>)

  /** The `capabilities` column; `secrets` holds each value's JSON text. */
  datatype Capabilities<V> = Capabilities(
    topics: Option<V>,
    modelProvider: string,
    imageModelProvider: Option<V>,
    messageExamples: Option<V>,
    postExamples: Option<V>,
    style: Style<V>,
    voice: Option<V>,
    secrets: map<string, string>)

  datatype AgentRow<V> = AgentRow(
    cultId: string,
    name: string,
    description: string,
    personality: string,
    knowledge: Option<V>,
    capabilities: Capabilities<V>)

  /** Why a file was not linked. `MissingRequired` is the handler's own error; the
      next two are the `TypeError`s of spreading a missing `adjectives` and reading
      `all` of a missing `style`. */
  datatype UploadError = NotJson | MissingRequired | AdjectivesNotIterable | StyleMissing | InsertFailed

  const MissingRequiredMessage := "Agent configuration must include name, modelProvider, and bio"

  /** A string is truthy when it is present and not empty; an array when present. */
  predicate Truthy(s: Option<string>) {
    s.Some? && s.value != ""
  }

  /** `style.all || []`. */
  function StyleWords<V>(style: Style<V>): seq<string> {
    if style.all.Some? then style.all.value else []
  }

  /** `Object.fromEntries(Object.entries(secrets || {}).map(([k, v]) => [k, JSON.stringify(v)]))`. */
  function EncodeSecrets<V>(secrets: Option<map<string, V>>, stringify: V -> string): (m: map<string, string>)
    ensures secrets.None? ==> m == map[]
    ensures secrets.Some? ==> m.Keys == secrets.value.Keys
    ensures secrets.Some? ==> forall k :: k in m ==> m[k] == stringify(secrets.value[k])
  {
    if secrets.None? then map[] else map k | k in secrets.value :: stringify(secrets.value[k])
  }

  /** The handler's work from the parsed configuration to the row it inserts, in the
      order it happens: the required-field check, the description, the personality,
      the capabilities. */
  function BuildAgentRow<V>(cultId: string, cfg: AgentConfig<V>, stringify: V -> string): (r: Result<AgentRow<V>, UploadError>)
    ensures r.Failure? ==> r.error != NotJson && r.error != InsertFailed
    ensures r.Failure? && r.error == MissingRequired <==>
      !Truthy(cfg.name) || !Truthy(cfg.modelProvider) || cfg.bio.None?
    ensures r.Failure? && r.error == AdjectivesNotIterable <==>
      Truthy(cfg.name) && Truthy(cfg.modelProvider) && cfg.bio.Some? && cfg.adjectives.None?
    ensures r.Failure? && r.error == StyleMissing <==>
      Truthy(cfg.name) && Truthy(cfg.modelProvider) && cfg.bio.Some? && cfg.adjectives.Some? && cfg.style.None?
    ensures r.Success? ==>
      && r.value.cultId == cultId
      && r.value.name == cfg.name.value && r.value.name != ""
      && r.value.description == Join(cfg.bio.value, " ")
      && r.value.personality == Join(cfg.adjectives.value + StyleWords(cfg.style.value), ", ")
      && r.value.knowledge == cfg.knowledge
      && r.value.capabilities ==
           Capabilities(cfg.topics, cfg.modelProvider.value, cfg.imageModelProvider,
                        cfg.messageExamples, cfg.postExamples, cfg.style.value,
                        if cfg.settings.Some? then cfg.settings.value.voice else None,
                        EncodeSecrets(if cfg.settings.Some? then cfg.settings.value.secrets else None, stringify))
      && r.value.capabilities.secrets.Keys ==
           (if cfg.settings.Some? && cfg.settings.value.secrets.Some? then cfg.settings.value.secrets.value.Keys else {})
  {
    if !Truthy(cfg.name) || !Truthy(cfg.modelProvider) || cfg.bio.None? then Failure(MissingRequired)
    else if cfg.adjectives.None? then Failure(AdjectivesNotIterable)
    else if cfg.style.None? then Failure(StyleMissing)
    else
      var description := Join(cfg.bio.value, " ");
      var personality := Join(cfg.adjectives.value + StyleWords(cfg.style.value), ", ");
      var voice := if cfg.settings.Some? then cfg.settings.value.voice else None;
      var secrets := if cfg.settings.Some? then cfg.settings.value.secrets else None;
      var capabilities := Capabilities(cfg.topics, cfg.modelProvider.value, cfg.imageModelProvider,
                                       cfg.messageExamples, cfg.postExamples, cfg.style.value, voice,
                                       EncodeSecrets(secrets, stringify));
      Success(AgentRow(cultId, cfg.name.value, description, personality, cfg.knowledge, capabilities))
  }

  /** An empty `bio` array is present, so it passes the check and gives an empty
      description. */
  lemma EmptyBioAccepted<V>(cultId: string, cfg: AgentConfig<V>, stringify: V -> string)
    requires Truthy(cfg.name) && Truthy(cfg.modelProvider) && cfg.bio == Some([])
    requires cfg.adjectives.Some? && cfg.style.Some?
    ensures BuildAgentRow(cultId, cfg, stringify).Success?
    ensures BuildAgentRow(cultId, cfg, stringify).value.description == ""
  {
  }

  /** The personality lists the adjectives, then the style words, with exactly one
      `", "` between the two groups when both are non-empty. */
  lemma PersonalityParts<V>(cultId: string, cfg: AgentConfig<V>, stringify: V -> string)
    requires BuildAgentRow(cultId, cfg, stringify).Success?
    ensures var p := BuildAgentRow(cultId, cfg, stringify).value.personality;
            var adjectives := cfg.adjectives.value;
            var words := StyleWords(cfg.style.value);
            && (words == [] ==> p == Join(adjectives, ", "))
            && (adjectives == [] ==> p == Join(words, ", "))
            && (adjectives != [] && words != [] ==> p == Join(adjectives, ", ") + ", " + Join(words, ", "))
  {
    var adjectives := cfg.adjectives.value;
    var words := StyleWords(cfg.style.value);
    assert adjectives + [] == adjectives;
    assert [] + words == words;
    if adjectives != [] && words != [] {
      JoinAppend(adjectives, words, ", ");
    }
  }

  /** The description of a non-empty bio is all its entries and one space between
      neighbours, and when no entry has a space the entries can be recovered from it. */
  lemma DescriptionOfBio<V>(cultId: string, cfg: AgentConfig<V>, stringify: V -> string)
    requires BuildAgentRow(cultId, cfg, stringify).Success? && cfg.bio.value != []
    ensures |BuildAgentRow(cultId, cfg, stringify).value.description|
            == TotalLength(cfg.bio.value) + |cfg.bio.value| - 1
    ensures (forall i :: 0 <= i < |cfg.bio.value| ==> ' ' !in cfg.bio.value[i]) ==>
            SplitOn(BuildAgentRow(cultId, cfg, stringify).value.description, ' ') == cfg.bio.value
  {
    if forall i :: 0 <= i < |cfg.bio.value| ==> ' ' !in cfg.bio.value[i] {
      SplitJoin(cfg.bio.value, ' ');
    }
  }

  /** What the user picked: nothing, a file that is not JSON, or a parsed one. */
  datatype Picked<V> = NothingPicked | NotJsonFile | ConfigFile(config: AgentConfig<V>)

  /** The upload widget of one cult. `agents` stands for the `cult_agents` rows it has
      inserted and `successCalls` counts the calls of `onSuccess`. */
  class AgentUploader<V> {
    const cultId: string
    var isUploading: bool
    var agents: seq<AgentRow<V>>
    var successCalls: nat

    constructor (cultId: string)
      ensures this.cultId == cultId && !isUploading && agents == [] && successCalls == 0
    {
      this.cultId := cultId;
      isUploading := false;
      agents := [];
      successCalls := 0;
    }

    /** `handleFileUpload`. `stringify` is `JSON.stringify`, `insertOk` whether the
        insert reports no error; `error` is `None` on success. */
    method HandleFileUpload(picked: Picked<V>, stringify: V -> string, insertOk: bool)
      returns (error: Option<UploadError>)
      modifies this
      ensures picked.NothingPicked? ==>
        error == None && isUploading == old(isUploading) && agents == old(agents) && successCalls == old(successCalls)
      ensures picked.NotJsonFile? ==>
        error == Some(NotJson) && !isUploading && agents == old(agents) && successCalls == old(successCalls)
      ensures picked.ConfigFile? ==>
        var built := BuildAgentRow(cultId, picked.config, stringify);
        && !isUploading
        && (built.Failure? ==> error == Some(built.error) && agents == old(agents))
        && (built.Success? ==> agents == (if insertOk then old(agents) + [built.value] else old(agents)))
        && (built.Success? ==> error == (if insertOk then None else Some(InsertFailed)))
        && successCalls == (if built.Success? && insertOk then old(successCalls) + 1 else old(successCalls))
    {
      if picked.NothingPicked? {
        return None;
      }
      isUploading := true;
      if picked.NotJsonFile? {
        error := Some(NotJson);
      } else {
        var built := BuildAgentRow(cultId, picked.config, stringify);
        if built.Failure? {
          error := Some(built.error);
        } else if !insertOk {
          error := Some(InsertFailed);
        } else {
          agents := agents + [built.value];
          successCalls := successCalls + 1;
          error := None;
        }
      }
      isUploading := false;
    }
  }
}

=== FILE: common.dfy ===
/** Value wrappers and the handful of JavaScript string built-ins the front end
    relies on: `includes`, `startsWith`, `endsWith`, `trim`, `toLowerCase`,
    `Array.prototype.join`, and the decimal rendering of a number in a template
    literal. */
module Common {

  datatype Option<+T> = None | Some(value: T)

  datatype Result<+T, +E> = Success(value: T) | Failure(error: E)

  /** A character matched by the regular-expression class `\s` and removed by
      `String.prototype.trim`: the ECMAScript WhiteSpace and LineTerminator sets. */
  predicate IsSpace(c: char) {
    || c == '\t' || c == '\n' || c == '\U{B}' || c == '\U{C}' || c == '\r' || c == ' '
    || c == '\U{A0}' || c == '\U{1680}' || ('\U{2000}' <= c <= '\U{200A}')
    || c == '\U{2028}' || c == '\U{2029}' || c == '\U{202F}' || c == '\U{205F}'
    || c == '\U{3000}' || c == '\U{FEFF}'
  }

  /** `s.trimStart()`: the longest suffix that does not start with white space. */
  function TrimStart(s: string): (r: string)
    ensures |r| <= |s| && r == s[|s| - |r|..]
    ensures r == [] || !IsSpace(r[0])
    ensures forall i :: 0 <= i < |s| - |r| ==> IsSpace(s[i])
    decreases |s|
  {
    if s != [] && IsSpace(s[0]) then TrimStart(s[1..]) else s
  }

  /** `s.trimEnd()`: the longest prefix that does not end with white space. */
  function TrimEnd(s: string): (r: string)
    ensures |r| <= |s| && r == s[..|r|]
    ensures r == [] || !IsSpace(r[|r| - 1])
    ensures forall i :: |r| <= i < |s| ==> IsSpace(s[i])
    decreases |s|
  {
    if s != [] && IsSpace(s[|s| - 1]) then TrimEnd(s[..|s| - 1]) else s
  }

  /** `s.trim()`. */
  function Trim(s: string): string {
    TrimEnd(TrimStart(s))
  }

  /** `!s.trim()`: every character is white space. */
  predicate IsBlank(s: string) {
    forall i :: 0 <= i < |s| ==> IsSpace(s[i])
  }

  /** Blank text is exactly the text that trimming empties. */
  lemma BlankIffTrimmedEmpty(s: string)
    ensures IsBlank(s) <==> Trim(s) == []
  {
  }

  /** `toLowerCase` restricted to ASCII: only `A`..`Z` change. */
  function LowerChar(c: char): char {
    if 'A' <= c <= 'Z' then (c as int + 32) as char else c
  }

  function Lower(s: string): (r: string)
    ensures |r| == |s|
    ensures forall i :: 0 <= i < |s| ==> r[i] == LowerChar(s[i])
  {
    if s == [] then [] else [LowerChar(s[0])] + Lower(s[1..])
  }

  /** Lower-casing works character by character, so it distributes over
      concatenation and neither creates nor removes white space. */
  lemma LowerAppend(a: string, b: string)
    ensures Lower(a + b) == Lower(a) + Lower(b)
  {
    assert forall i :: 0 <= i < |a + b| ==> Lower(a + b)[i] == (Lower(a) + Lower(b))[i];
  }

  lemma LowerKeepsSpace(c: char)
    ensures IsSpace(LowerChar(c)) <==> IsSpace(c)
  {
  }

  lemma LowerIdempotent(s: string)
    ensures Lower(Lower(s)) == Lower(s)
  {
  }

  /** `s.startsWith(p)`. */
  predicate IsPrefix(p: string, s: string) {
    |p| <= |s| && s[..|p|] == p
  }

  /** `s.endsWith(suffix)`. */
  predicate EndsWith(s: string, suffix: string) {
    |suffix| <= |s| && s[|s| - |suffix|..] == suffix
  }

  /** Text built from three parts starts with the first and ends with the last. */
  lemma Affixes(head: string, middle: string, tail: string)
    ensures head <= head + middle + tail
    ensures EndsWith(head + middle + tail, tail)
  {
    assert (head + middle + tail)[..|head|] == head;
    assert (head + middle + tail)[|head + middle|..] == tail;
  }

  /** `sub` occurs in `s` starting at position `i`. */
  predicate OccursAt(s: string, sub: string, i: int) {
    0 <= i <= |s| - |sub| && s[i..i + |sub|] == sub
  }

  /** `s.includes(sub)`: try every start position of `s`, left to right. The scan
      succeeds exactly when `sub` occurs at some position. */
  function Contains(s: string, sub: string): (b: bool)
    ensures b <==> exists i :: OccursAt(s, sub, i)
    decreases |s|
  {
    if IsPrefix(sub, s) then
      assert OccursAt(s, sub, 0);
      true
    else if s == [] then
      false
    else
      var r := Contains(s[1..], sub);
      assert r ==> exists i :: OccursAt(s, sub, i) by {
        if r {
          var j :| OccursAt(s[1..], sub, j);
          assert s[j + 1..j + 1 + |sub|] == s[1..][j..j + |sub|];
          assert OccursAt(s, sub, j + 1);
        }
      }
      assert (exists i :: OccursAt(s, sub, i)) ==> r by {
        if i :| OccursAt(s, sub, i) {
          assert i != 0;
          assert s[i..i + |sub|] == s[1..][i - 1..i - 1 + |sub|];
          assert OccursAt(s[1..], sub, i - 1);
        }
      }
      r
  }

  /** The empty string is contained in every string. */
  lemma ContainsEmpty(s: string)
    ensures Contains(s, "")
  {
    assert IsPrefix("", s);
  }

  /** `parts.join(sep)`: all parts in order with one separator between neighbours,
      so its length is the parts' total plus one separator fewer than parts. */
  function Join(parts: seq<string>, sep: string): (r: string)
    ensures parts != [] ==> |r| == TotalLength(parts) + (|parts| - 1) * |sep|
    decreases |parts|
  {
    if |parts| == 0 then ""
    else if |parts| == 1 then parts[0]
    else
      var rest := Join(parts[1..], sep);
      assert (|parts| - 1) * |sep| == (|parts[1..]| - 1) * |sep| + |sep|;
      parts[0] + sep + rest
  }

  /** Joining a concatenation of two non-empty lists puts exactly one separator
      between the two joined halves. */
  lemma {:induction false} JoinAppend(a: seq<string>, b: seq<string>, sep: string)
    requires a != [] && b != []
    ensures Join(a + b, sep) == Join(a, sep) + sep + Join(b, sep)
    decreases |a|
  {
    if |a| == 1 {
      assert (a + b)[1..] == b;
    } else {
      assert (a + b)[1..] == a[1..] + b;
      JoinAppend(a[1..], b, sep);
    }
  }

  function TotalLength(parts: seq<string>): nat
    decreases |parts|
  {
    if parts == [] then 0 else |parts[0]| + TotalLength(parts[1..])
  }

  /** `s` ends with `e`, `e` has no `c`, and `e` is all of `s` or follows its last `c`. */
  predicate LastPieceOf(s: string, c: char, e: string) {
    && c !in e
    && |e| <= |s| && e == s[|s| - |e|..]
    && (c !in s ==> e == s)
    && (c in s ==> |e| < |s| && s[|s| - |e| - 1] == c)
  }

  /** There is only one text after the last `c`. */
  lemma LastPieceUnique(s: string, c: char, e1: string, e2: string)
    requires LastPieceOf(s, c, e1) && LastPieceOf(s, c, e2)
    ensures e1 == e2
  {
    if c in s {
      var k1, k2 := |s| - |e1|, |s| - |e2|;
      assert forall j :: k1 <= j < |s| ==> s[j] == e1[j - k1];
      assert forall j :: k2 <= j < |s| ==> s[j] == e2[j - k2];
      assert s[k1 - 1] == c && s[k2 - 1] == c;
      assert |e1| == |e2|;
    }
  }

  /** The position of the first `c` in `s`. */
  function FirstIndex(s: string, c: char): (i: nat)
    requires c in s
    ensures i < |s| && s[i] == c && c !in s[..i]
    decreases |s|
  {
    if s[0] == c then 0
    else
      assert s == [s[0]] + s[1..];
      var j := FirstIndex(s[1..], c);
      assert s[..j + 1] == [s[0]] + s[1..][..j];
      1 + j
  }

  /** `s.split(c)` for a one-character separator: the text before the first `c`, then
      the split of the rest; `s` itself when there is no `c`. */
  function SplitOn(s: string, c: char): (parts: seq<string>)
    ensures |parts| >= 1
    decreases |s|
  {
    if c !in s then [s]
    else
      var i := FirstIndex(s, c);
      [s[..i]] + SplitOn(s[i + 1..], c)
  }

  /** Appending a character other than the separator extends the last piece. */
  lemma LastPieceAppend(s: string, c: char, x: char, e: string)
    requires x != c && LastPieceOf(s, c, e)
    ensures LastPieceOf(s + [x], c, e + [x])
  {
    var t := s + [x];
    assert t[|t| - |e| - 1..] == s[|s| - |e|..] + [x];
    if c in s {
      assert t[|t| - |e| - 2] == s[|s| - |e| - 1];
    } else {
      assert c !in t;
    }
  }

  /** A last piece after a `c` at position `i` is also the last piece of all of `s`. */
  lemma LastPieceExtend(s: string, c: char, i: nat, e: string)
    requires i < |s| && s[i] == c && LastPieceOf(s[i + 1..], c, e)
    ensures LastPieceOf(s, c, e)
  {
    var t := s[i + 1..];
    assert s[|s| - |e|..] == t[|t| - |e|..];
    if c in t {
      assert s[|s| - |e| - 1] == t[|t| - |e| - 1];
    } else {
      assert e == t;
    }
  }

  /** The last piece of a split is the text after the last separator. */
  lemma {:induction false} SplitLastPiece(s: string, c: char)
    ensures var parts := SplitOn(s, c); LastPieceOf(s, c, parts[|parts| - 1])
    decreases |s|
  {
    if c in s {
      var i := FirstIndex(s, c);
      var t := s[i + 1..];
      SplitLastPiece(t, c);
      var parts := SplitOn(t, c);
      assert SplitOn(s, c) == [s[..i]] + parts;
      LastPieceExtend(s, c, i, parts[|parts| - 1]);
    }
  }

  lemma {:induction false} FirstIndexAfter(p: string, c: char, rest: string)
    requires c !in p
    ensures c in p + [c] + rest && FirstIndex(p + [c] + rest, c) == |p|
    decreases |p|
  {
    var s := p + [c] + rest;
    assert s[|p|] == c;
    if p != [] {
      assert s[1..] == p[1..] + [c] + rest;
      FirstIndexAfter(p[1..], c, rest);
    }
  }

  lemma SplitAfterFirst(p: string, c: char, rest: string)
    requires c !in p
    ensures SplitOn(p + [c] + rest, c) == [p] + SplitOn(rest, c)
  {
    var s := p + [c] + rest;
    FirstIndexAfter(p, c, rest);
    assert s[..|p|] == p && s[|p| + 1..] == rest;
  }

  /** Splitting a join on a one-character separator that no part contains gives the
      parts back. */
  lemma {:induction false} SplitJoin(parts: seq<string>, c: char)
    requires parts != []
    requires forall i :: 0 <= i < |parts| ==> c !in parts[i]
    ensures SplitOn(Join(parts, [c]), c) == parts
    decreases |parts|
  {
    if |parts| > 1 {
      SplitJoin(parts[1..], c);
      SplitAfterFirst(parts[0], c, Join(parts[1..], [c]));
      assert parts == [parts[0]] + parts[1..];
    }
  }

  function DigitChar(d: nat): char
    requires d < 10
  {
    ('0' as int + d) as char
  }

  /** The number a string of decimal digits spells, most significant digit first. */
  function DecimalValue(r: string): nat
    requires forall i :: 0 <= i < |r| ==> '0' <= r[i] <= '9'
    decreases |r|
  {
    if r == [] then 0 else DecimalValue(r[..|r| - 1]) * 10 + (r[|r| - 1] as int - '0' as int)
  }

  /** The decimal text of a non-negative integer, as a template literal writes it:
      digits that spell `n`, with no leading zero. */
  function DecimalString(n: nat): (r: string)
    ensures r != []
    ensures forall i :: 0 <= i < |r| ==> '0' <= r[i] <= '9'
    ensures DecimalValue(r) == n
    ensures r[0] == '0' ==> r == "0"
    decreases n
  {
    if n < 10 then [DigitChar(n)]
    else
      var init := DecimalString(n / 10);
      var r := init + [DigitChar(n % 10)];
      assert r[..|r| - 1] == init;
      r
  }
}

=== FILE: create_cult_chat.dfy ===
/** The guided create-cult conversation: a chat that asks for a name, a description
    and a type, one answer per step, then inserts the cult. `InputSection` (driven by
    its parent's state) and the `CreateCult` page (owning its state) run the same step
    machine; the class below holds that state. */
module CreateCultChat {
  import opened Common

  datatype Step = NameStep | DescriptionStep | TypeStep | Complete

  datatype Role = SystemRole | UserRole | AssistantRole

  /** A chat message; a user message records the step it answered. */
  datatype Message = Message(role: Role, content: string, field: Option<Step>)

  datatype FormData = FormData(name: string, description: string, cultType: string, customUrl: Option<string>)

  /** The row inserted into `cults` when the type step is answered. */
  datatype CultInsert = CultInsert(name: string, description: string, cultType: string, themeColor: string)

  /** What the AI helper returns: its `cult_type` may be missing. */
  datatype CultInfo = CultInfo(description: string, cultType: Option<string>)

  datatype ChatState = ChatState(
    messages: seq<Message>,
    currentStep: Step,
    formData: FormData,
    currentInput: string,
    showAIButton: bool,
    isGenerating: bool)

  const ThemeColor := "#2D1B69"
  const Welcome := "Welcome! Let's create your cult together. What would you like to name your cult?"
  const AskDescription := "Great name! Now, describe your cult's purpose and vision."
  const AskType := "Choose your cult type: 'dev' for developers or 'agent' for AI agents."
  const Created := "Perfect! Your cult has been created. Redirecting to dashboard..."
  const CreateFailed := "There was an error creating your cult. Please try again."

  /** Position of a step in the conversation. */
  function StepIndex(s: Step): nat {
    match s
    case NameStep => 0
    case DescriptionStep => 1
    case TypeStep => 2
    case Complete => 3
  }

  /** The type answer: `'agent'` when it reads "agent" in any ASCII case, else `'dev'`. */
  function ParseCultType(input: string): (t: string)
    ensures t == "agent" || t == "dev"
    ensures t == "agent" <==> Lower(input) == "agent"
  {
    if Lower(input) == "agent" then "agent" else "dev"
  }

  function NextStep(s: Step): Step {
    match s
    case NameStep => DescriptionStep
    case DescriptionStep => TypeStep
    case TypeStep => Complete
    case Complete => Complete
  }

  /** The system reply to an answer; none once the conversation is complete. */
  function SystemReply(s: Step, insertOk: bool): string {
    match s
    case NameStep => AskDescription
    case DescriptionStep => AskType
    case TypeStep => if insertOk then Created else CreateFailed
    case Complete => ""
  }

  /** The form after an answer: only the field the step asks for changes. */
  function UpdatedForm(form: FormData, s: Step, input: string): FormData {
    match s
    case NameStep => form.(name := input)
    case DescriptionStep => form.(description := input)
    case TypeStep => form.(cultType := ParseCultType(input))
    case Complete => form
  }

  /** `handleSubmit` as a transition on the chat state. */
  function Submitted(s: ChatState, insertOk: bool): (r: ChatState)
    ensures IsBlank(s.currentInput) ==> r == s
    ensures !IsBlank(s.currentInput) ==>
      && StepIndex(r.currentStep) == (if s.currentStep == Complete then 3 else StepIndex(s.currentStep) + 1)
      && r.currentInput == ""
      && !r.showAIButton
      && r.isGenerating == s.isGenerating
      && |r.messages| == |s.messages| + (if s.currentStep == Complete then 1 else 2)
      && r.messages[..|s.messages|] == s.messages
      && r.messages[|s.messages|] == Message(UserRole, s.currentInput, Some(s.currentStep))
      && (s.currentStep != Complete ==> r.messages[|s.messages| + 1].role == SystemRole)
    ensures !IsBlank(s.currentInput) && s.currentStep == NameStep ==>
      r.messages[|s.messages| + 1].content == AskDescription
    ensures !IsBlank(s.currentInput) && s.currentStep == DescriptionStep ==>
      r.messages[|s.messages| + 1].content == AskType
    ensures !IsBlank(s.currentInput) && s.currentStep == NameStep ==>
      r.formData == s.formData.(name := s.currentInput)
    ensures !IsBlank(s.currentInput) && s.currentStep == DescriptionStep ==>
      r.formData == s.formData.(description := s.currentInput)
    ensures !IsBlank(s.currentInput) && s.currentStep == TypeStep ==>
      && r.formData.name == s.formData.name
      && r.formData.description == s.formData.description
      && r.formData.customUrl == s.formData.customUrl
      && r.formData.cultType == ParseCultType(s.currentInput)
      && (r.formData.cultType == "agent" <==> Lower(s.currentInput) == "agent")
      && r.messages[|s.messages| + 1].content == (if insertOk then Created else CreateFailed)
    ensures s.currentStep == Complete ==> r.currentStep == Complete && r.formData == s.formData
  {
    if IsBlank(s.currentInput) then s
    else
      var input := s.currentInput;
      var newMessages := s.messages + [Message(UserRole, input, Some(s.currentStep))];
      var reply := SystemReply(s.currentStep, insertOk);
      ChatState(
        if reply != "" then newMessages + [Message(SystemRole, reply, None)] else newMessages,
        NextStep(s.currentStep),
        UpdatedForm(s.formData, s.currentStep, input),
        "",
        false,
        s.isGenerating)
  }

  /** `cultInfo.cult_type || 'dev'`. */
  function CultTypeOrDev(t: Option<string>): (r: string)
    ensures r == "dev" <==> t.None? || t.value == "" || t.value == "dev"
    ensures t.Some? && t.value != "" ==> r == t.value
  {
    if t.Some? && t.value != "" then t.value else "dev"
  }

  /** How a template literal shows a possibly missing value. */
  function Shown(t: Option<string>): string {
    if t.Some? then t.value else "undefined"
  }

  const GeneratedIntro := "I've generated some details for your cult:"
  const ContinueNote := "You can continue with these details or modify them as you wish."

  /** The four messages that report a generation. */
  function GeneratedMessages(ci: CultInfo): seq<Message> {
    [Message(AssistantRole, GeneratedIntro, None),
     Message(AssistantRole, "Description: " + ci.description, None),
     Message(AssistantRole, "Type: " + Shown(ci.cultType), None),
     Message(SystemRole, ContinueNote, None)]
  }

  /** `handleGenerateWithAI` as a transition: `info` is the AI helper's result, `None`
      when it returned nothing or threw. */
  function Generated(s: ChatState, info: Option<CultInfo>): (r: ChatState)
    ensures s.formData.name == "" ==> r == s
    ensures s.formData.name != "" && info.None? ==> r == s.(isGenerating := false)
    ensures s.formData.name != "" && info.Some? ==>
      && r.currentStep == TypeStep
      && |r.messages| == |s.messages| + 4
      && r.messages[..|s.messages|] == s.messages
      && r.messages[|s.messages| + 1].content == "Description: " + info.value.description
      && r.messages[|s.messages| + 2].content == "Type: " + Shown(info.value.cultType)
      && r.messages[|s.messages| + 3].role == SystemRole
      && r.formData.name == s.formData.name
      && r.formData.customUrl == s.formData.customUrl
      && r.formData.description == info.value.description
      && r.formData.cultType == CultTypeOrDev(info.value.cultType)
      && r.currentInput == s.currentInput
      && r.showAIButton == s.showAIButton
      && !r.isGenerating
  {
    if s.formData.name == "" then s
    else if info.None? then s.(isGenerating := false)
    else
      var ci := info.value;
      s.(formData := s.formData.(description := ci.description, cultType := CultTypeOrDev(ci.cultType)),
         messages := s.messages + GeneratedMessages(ci),
         currentStep := TypeStep,
         isGenerating := false)
  }

  /** A generation without a type reports the type as "undefined" while the form
      falls back to "dev". */
  lemma MissingTypeShownUndefined(s: ChatState, ci: CultInfo)
    requires s.formData.name != "" && ci.cultType.None?
    ensures var r := Generated(s, Some(ci));
            r.messages[|s.messages| + 2].content == "Type: undefined" && r.formData.cultType == "dev"
  {
  }

  /** The page's state when it opens. */
  function InitialState(): ChatState {
    ChatState([Message(SystemRole, Welcome, None)], NameStep, FormData("", "", "dev", None), "", false, false)
  }

  /** Three non-blank answers from the opening state complete the conversation with
      the typed name and description and the parsed type, whatever the insert does. */
  lemma ThreeAnswersComplete(name: string, description: string, cultType: string, insertOk: bool)
    requires !IsBlank(name) && !IsBlank(description) && !IsBlank(cultType)
    ensures var s1 := Submitted(InitialState().(currentInput := name), insertOk);
            var s2 := Submitted(s1.(currentInput := description), insertOk);
            var s3 := Submitted(s2.(currentInput := cultType), insertOk);
            && s1.currentStep == DescriptionStep && s2.currentStep == TypeStep && s3.currentStep == Complete
            && s3.formData == FormData(name, description, ParseCultType(cultType), None)
            && |s3.messages| == 7
  {
  }

  /** What the user can do to the chat: type, submit (with the insert's outcome),
      or ask the AI helper (with its result). */
  datatype Event = Typed(text: string) | Submit(insertOk: bool) | AskAI(info: Option<CultInfo>)

  function Apply(s: ChatState, e: Event): ChatState {
    match e
    case Typed(text) => s.(currentInput := text)
    case Submit(ok) => Submitted(s, ok)
    case AskAI(info) => Generated(s, info)
  }

  function Run(s: ChatState, events: seq<Event>): ChatState
    decreases |events|
  {
    if events == [] then s else Run(Apply(s, events[0]), events[1..])
  }

  /** The name step raises the AI button flag, but the same submit lowers it again
      because the next step is never the name step; so from any state without the
      button, no sequence of events shows it. */
  lemma {:induction false} AIButtonNeverShown(s: ChatState, events: seq<Event>)
    requires !s.showAIButton
    ensures !Run(s, events).showAIButton
    decreases |events|
  {
    if events != [] {
      AIButtonNeverShown(Apply(s, events[0]), events[1..]);
    }
  }

  class Conversation {
    var messages: seq<Message>
    var currentStep: Step
    var formData: FormData
    var currentInput: string
    var showAIButton: bool
    var isGenerating: bool

    function State(): ChatState
      reads this
    {
      ChatState(messages, currentStep, formData, currentInput, showAIButton, isGenerating)
    }

    /** The `CreateCult` page's initial state: the welcome message, the name step, an
        empty form of type `'dev'`. */
    constructor ()
      ensures State() == InitialState()
    {
      messages := [Message(SystemRole, Welcome, None)];
      currentStep := NameStep;
      formData := FormData("", "", "dev", None);
      currentInput := "";
      showAIButton := false;
      isGenerating := false;
    }

    /** The input box's `onChange`. */
    method SetInput(text: string)
      modifies this
      ensures State() == old(State()).(currentInput := text)
    {
      currentInput := text;
    }

    /** `handleSubmit`. `insertOk` is the database's answer to the insert; `insert` is
        the row sent, if any, and `redirect` whether the dashboard redirect is scheduled. */
    method HandleSubmit(insertOk: bool) returns (insert: Option<CultInsert>, redirect: bool)
      modifies this
      ensures State() == Submitted(old(State()), insertOk)
      ensures insert.Some? <==> !IsBlank(old(currentInput)) && old(currentStep) == TypeStep
      ensures insert.Some? ==> insert.value == CultInsert(formData.name, formData.description, formData.cultType, ThemeColor)
      ensures redirect <==> insert.Some? && insertOk
    {
      insert, redirect := None, false;
      if IsBlank(currentInput) {
        return;
      }
      var input := currentInput;
      var step := currentStep;
      var newMessages := messages + [Message(UserRole, input, Some(step))];
      messages := newMessages;
      currentInput := "";

      var updatedFormData := formData;
      if step == NameStep {
        updatedFormData := updatedFormData.(name := input);
        showAIButton := true;
      } else if step == TypeStep {
        updatedFormData := updatedFormData.(cultType := if Lower(input) == "agent" then "agent" else "dev");
      } else if step == DescriptionStep {
        updatedFormData := updatedFormData.(description := input);
      }
      formData := updatedFormData;

      var nextStep := step;
      var systemMessage := "";
      match step {
        case NameStep =>
          nextStep := DescriptionStep;
          systemMessage := AskDescription;
        case DescriptionStep =>
          nextStep := TypeStep;
          systemMessage := AskType;
        case TypeStep =>
          nextStep := Complete;
          insert := Some(CultInsert(updatedFormData.name, updatedFormData.description,
                                    updatedFormData.cultType, ThemeColor));
          if insertOk {
            systemMessage := Created;
            redirect := true;
          } else {
            systemMessage := CreateFailed;
          }
        case Complete =>
      }

      if systemMessage != "" {
        messages := newMessages + [Message(SystemRole, systemMessage, None)];
      }
      currentStep := nextStep;
      if nextStep != NameStep {
        showAIButton := false;
      }
    }

    /** `handleGenerateWithAI`; `info` is the AI helper's result. */
    method HandleGenerateWithAI(info: Option<CultInfo>)
      modifies this
      ensures State() == Generated(old(State()), info)
    {
      if formData.name == "" {
        return;
      }
      isGenerating := true;
      if info.Some? {
        var ci := info.value;
        formData := formData.(description := ci.description, cultType := CultTypeOrDev(ci.cultType));
        messages := messages + GeneratedMessages(ci);
        currentStep := TypeStep;
      }
      isGenerating := false;
    }

    /** Whether the input area (box, send button, AI button) is rendered. */
    function InputAreaShown(): (shown: bool)
      reads this
      ensures shown <==> StepIndex(currentStep) < 3
    {
      currentStep != Complete
    }
  }
}

=== FILE: cult_card.dfy ===
/** The two decision tables of a cult card: which single action button it shows
    (`CultCardActions`) and which badges it shows (`CultCardBadges`). */
module CultCard {

  /** The one button a card renders. `Manage`, `SignInToJoin` and `View` navigate to
      `target`; `Join` calls `onJoin(cultId)`; `ApplyToJoin` opens the application
      dialog for `cultId`; `ApplicationPending` is disabled. */
  datatype Action =
    | Manage(target: string)
    | SignInToJoin(target: string)
    | View(target: string)
    | ApplicationPending
    | Join(cultId: string)
    | ApplyToJoin(cultId: string)

  /** The chain of early returns, first match wins. */
  function CardAction(cultId: string, isFounder: bool, isMember: bool, hasPendingApplication: bool,
                      joinType: string, hasSession: bool): (a: Action)
    ensures a.Manage? <==> isFounder
    ensures a.SignInToJoin? <==> !isFounder && !hasSession
    ensures a.View? <==> !isFounder && hasSession && isMember
    ensures a.ApplicationPending? <==> !isFounder && hasSession && !isMember && hasPendingApplication
    ensures a.Join? <==> !isFounder && hasSession && !isMember && !hasPendingApplication && joinType == "public"
    ensures a.ApplyToJoin? <==> !isFounder && hasSession && !isMember && !hasPendingApplication && joinType != "public"
    ensures (a.Manage? || a.View?) ==> a.target == "/cult/" + cultId
    ensures a.SignInToJoin? ==> a.target == "/auth"
    ensures (a.Join? || a.ApplyToJoin?) ==> a.cultId == cultId
  {
    if isFounder then Manage("/cult/" + cultId)
    else if !hasSession then SignInToJoin("/auth")
    else if isMember then View("/cult/" + cultId)
    else if hasPendingApplication then ApplicationPending
    else if joinType == "public" then Join(cultId)
    else ApplyToJoin(cultId)
  }

  /** A founder's card is the same whatever the other flags say. */
  lemma FounderAlwaysManages(cultId: string, isMember: bool, hasPendingApplication: bool, joinType: string,
                             hasSession: bool, isMember': bool, hasPendingApplication': bool,
                             joinType': string, hasSession': bool)
    ensures CardAction(cultId, true, isMember, hasPendingApplication, joinType, hasSession)
         == CardAction(cultId, true, isMember', hasPendingApplication', joinType', hasSession')
  {
  }

  datatype BadgeKind = TypeBadge | RoleBadge | JoinBadge

  datatype Badge = Badge(kind: BadgeKind, text: string)

  /** The badges in display order: type, then the role badge when there is one,
      then the join policy. */
  function Badges(cultType: string, joinType: string, isFounder: bool, isMember: bool): (bs: seq<Badge>)
    ensures |bs| == (if isFounder || isMember then 3 else 2)
    ensures bs[0].kind == TypeBadge && bs[|bs| - 1].kind == JoinBadge
    ensures bs[0].text == "Developer" <==> cultType == "dev"
    ensures bs[0].text == "AI Agent" <==> cultType != "dev"
    ensures bs[|bs| - 1].text == "Public" <==> joinType == "public"
    ensures bs[|bs| - 1].text == "Application Required" <==> joinType != "public"
    ensures forall i :: 0 <= i < |bs| && bs[i].kind == RoleBadge ==> i == 1
    ensures |bs| == 3 ==> bs[1].kind == RoleBadge
    ensures |bs| == 3 ==> (bs[1].text == "Founder" <==> isFounder)
    ensures |bs| == 3 ==> (bs[1].text == "Member" <==> !isFounder && isMember)
  {
    var typeBadge := Badge(TypeBadge, if cultType == "dev" then "Developer" else "AI Agent");
    var roleBadge := if isFounder || isMember then [Badge(RoleBadge, if isFounder then "Founder" else "Member")] else [];
    var joinBadge := Badge(JoinBadge, if joinType == "public" then "Public" else "Application Required");
    [typeBadge] + roleBadge + [joinBadge]
  }
}

=== FILE: cult_form.dfy ===
/** The create-cult form: the field validators of its schema (`FormFields.tsx`) and
    the hook that supplies default values and turns validated values into the row
    inserted into `cults` (`useCreateCult.ts`). */
module CultForm {
  import opened Common

  /** The form's values; `None` is an absent optional field. */
  datatype FormValues = FormValues(
    name: string,
    description: string,
    themeColor: string,
    twitterHandle: Option<string>,
    cultType: string,
    customUrl: Option<string>)

  /** The schema's fields, in declaration order. */
  datatype Field = Name | Description | ThemeColor | TwitterHandle | CultType | CustomUrl

  const DefaultThemeColor := "#2D1B69"

  predicate IsHexDigit(c: char) {
    ('0' <= c <= '9') || ('a' <= c <= 'f') || ('A' <= c <= 'F')
  }

  predicate AllHex(s: string) {
    forall i :: 0 <= i < |s| ==> IsHexDigit(s[i])
  }

  /** `/^#([A-Fa-f0-9]{6}|[A-Fa-f0-9]{3})$/`. */
  predicate ValidThemeColor(s: string) {
    |s| > 0 && s[0] == '#' && ((|s[1..]| == 6 && AllHex(s[1..])) || (|s[1..]| == 3 && AllHex(s[1..])))
  }

  /** `/^[a-z0-9-]+$/`. */
  predicate IsSlug(s: string) {
    |s| > 0 && forall i :: 0 <= i < |s| ==> ('a' <= s[i] <= 'z') || ('0' <= s[i] <= '9') || s[i] == '-'
  }

  /** The check the schema attaches to one field. */
  predicate FieldValid(v: FormValues, f: Field) {
    match f
    case Name => |v.name| >= 2
    case Description => |v.description| >= 10
    case ThemeColor => ValidThemeColor(v.themeColor)
    case TwitterHandle => true
    case CultType => v.cultType == "dev" || v.cultType == "agent"
    case CustomUrl => v.customUrl.None? || IsSlug(v.customUrl.value)
  }

  predicate ValidForm(v: FormValues) {
    forall f: Field :: FieldValid(v, f)
  }

  /** The schema's verdict: the fields whose check fails, in schema order. */
  function Validate(v: FormValues): (errors: seq<Field>)
    ensures forall f :: f in errors <==> !FieldValid(v, f)
    ensures errors == [] <==> ValidForm(v)
    ensures |v.name| < 2 <==> Name in errors
    ensures |v.description| < 10 <==> Description in errors
    ensures TwitterHandle !in errors
    ensures v.customUrl == Some("") ==> CustomUrl in errors
  {
    var errors :=
      (if FieldValid(v, Name) then [] else [Name])
      + (if FieldValid(v, Description) then [] else [Description])
      + (if FieldValid(v, ThemeColor) then [] else [ThemeColor])
      + (if FieldValid(v, CultType) then [] else [CultType])
      + (if FieldValid(v, CustomUrl) then [] else [CustomUrl]);
    assert forall f: Field :: f.Name? || f.Description? || f.ThemeColor? || f.TwitterHandle? || f.CultType? || f.CustomUrl?;
    assert ValidForm(v) ==> errors == [];
    assert errors == [] ==> ValidForm(v);
    errors
  }

  /** The theme colour must be `#` and exactly three or exactly six hex digits. */
  lemma ThemeColorShape(s: string)
    ensures ValidThemeColor(s) <==> (|s| == 4 || |s| == 7) && s[0] == '#' && AllHex(s[1..])
  {
  }

  /** The form's initial values. */
  function DefaultValues(): FormValues {
    FormValues("", "", DefaultThemeColor, Some(""), "dev", Some(""))
  }

  /** The default theme colour is a six-digit colour, but the defaults as a whole fail
      validation: besides the empty name and description, the empty custom URL is
      present and does not match `/^[a-z0-9-]+$/`. */
  lemma DefaultValuesRejected()
    ensures ValidThemeColor(DefaultValues().themeColor) && |DefaultValues().themeColor| == 7
    ensures Validate(DefaultValues()) == [Name, Description, CustomUrl]
  {
    var d := DefaultValues();
    assert d.themeColor[1..] == "2D1B69";
    assert IsHexDigit(d.themeColor[1..][0]) && IsHexDigit(d.themeColor[1..][1]);
    assert !FieldValid(d, CustomUrl);
  }

  /** The row sent to `cults`; `None` is a key left out of the object. */
  datatype CultRow = CultRow(
    name: string,
    description: string,
    themeColor: string,
    cultType: string,
    twitterHandle: Option<string>,
    customUrl: Option<string>)

  /** A string field's value is truthy: present and not empty. */
  predicate Filled(s: Option<string>) {
    s.Some? && s.value != ""
  }

  /** `onSubmit`: builds the row field by field, sends it, and calls `onSuccess`
      exactly when the insert reports no error. */
  method OnSubmit(values: FormValues, insertOk: bool) returns (row: CultRow, calledOnSuccess: bool)
    ensures row.name == values.name && row.description == values.description
    ensures row.themeColor == values.themeColor && row.cultType == values.cultType
    ensures row.twitterHandle == if Filled(values.twitterHandle) then values.twitterHandle else None
    ensures row.customUrl == if Filled(values.customUrl) then values.customUrl else None
    ensures calledOnSuccess <==> insertOk
  {
    row := CultRow(values.name, values.description, values.themeColor, values.cultType, None, None);
    if Filled(values.twitterHandle) {
      row := row.(twitterHandle := values.twitterHandle);
    }
    if Filled(values.customUrl) {
      row := row.(customUrl := values.customUrl);
    }
    calledOnSuccess := insertOk;
  }

  /** The form's submit handler: the schema runs first, and only values it accepts
      reach `onSubmit`; nothing is inserted otherwise. */
  method SubmitForm(values: FormValues, insertOk: bool) returns (row: Option<CultRow>, calledOnSuccess: bool)
    ensures row.Some? <==> ValidForm(values)
    ensures row.Some? ==> row.value.name == values.name && |row.value.name| >= 2
    ensures row.Some? ==> (row.value.customUrl.Some? <==> values.customUrl.Some?)
    ensures row.Some? && values.customUrl.Some? ==> IsSlug(row.value.customUrl.value)
    ensures calledOnSuccess <==> ValidForm(values) && insertOk
  {
    var errors := Validate(values);
    if errors != [] {
      row, calledOnSuccess := None, false;
    } else {
      assert FieldValid(values, CustomUrl);
      var r;
      r, calledOnSuccess := OnSubmit(values, insertOk);
      row := Some(r);
    }
  }
}

=== FILE: filtered_cults.dfy ===
/** The dashboard's client-side filter over already-fetched cult rows
    (`useFilteredCults`): a search query, a cult-type selector and a tab. */
module FilteredCults {
  import opened Common

  datatype CultType = Dev | Agent

  /** A row of the `cults` table as the dashboard receives it; `None` stands for null. */
  datatype Cult = Cult(
    id: string,
    name: string,
    description: Option<string>,
    themeColor: Option<string>,
    logoUrl: Option<string>,
    founderId: Option<string>,
    visibility: Option<string>,
    twitterHandle: Option<string>,
    cultType: CultType,
    parentCultId: Option<string>,
    linkedAgentsCount: Option<int>,
    createdAt: string,
    updatedAt: string)

  /** The type selector: `'all'`, `'dev'` or `'agent'`. */
  datatype TypeFilter = AllTypes | OnlyType(selected: CultType)

  datatype Tab = Discover | MyCults

  datatype Filters = Filters(searchQuery: string, cultType: TypeFilter, activeTab: Tab)

  /** The initial values of the three filter state holders. */
  function DefaultFilters(): Filters {
    Filters("", AllTypes, Discover)
  }

  /** Case-insensitive search in the name, or in the description when it is not null. */
  predicate MatchesSearch(c: Cult, query: string) {
    || Contains(Lower(c.name), Lower(query))
    || (c.description.Some? && Contains(Lower(c.description.value), Lower(query)))
  }

  predicate MatchesType(c: Cult, t: TypeFilter) {
    t.AllTypes? || c.cultType == t.selected
  }

  /** `founder_id === currentUserId`: a null founder never equals an undefined user. */
  predicate MatchesTab(c: Cult, tab: Tab, currentUserId: Option<string>) {
    tab == Discover
    || (tab == MyCults && c.founderId.Some? && currentUserId.Some?
        && c.founderId.value == currentUserId.value)
  }

  predicate Keep(c: Cult, f: Filters, currentUserId: Option<string>) {
    MatchesSearch(c, f.searchQuery) && MatchesType(c, f.cultType) && MatchesTab(c, f.activeTab, currentUserId)
  }

  /** `r` is `s` with some elements left out, the rest in their original order. */
  predicate IsSubsequence<T(==)>(r: seq<T>, s: seq<T>)
    decreases |s|
  {
    if r == [] then true
    else if s == [] then false
    else (r[0] == s[0] && IsSubsequence(r[1..], s[1..])) || IsSubsequence(r, s[1..])
  }

  /** `cults.filter(...)` on a defined list. */
  function FilterSeq(cults: seq<Cult>, f: Filters, currentUserId: Option<string>): (r: seq<Cult>)
    ensures IsSubsequence(r, cults)
    ensures forall c :: c in r ==> Keep(c, f, currentUserId)
    ensures forall c :: multiset(r)[c] == if Keep(c, f, currentUserId) then multiset(cults)[c] else 0
    decreases |cults|
  {
    if cults == [] then []
    else
      var rest := FilterSeq(cults[1..], f, currentUserId);
      assert cults == [cults[0]] + cults[1..];
      if Keep(cults[0], f, currentUserId) then [cults[0]] + rest else rest
  }

  /** `cults?.filter(...)`: an undefined list stays undefined; a defined one keeps, in
      order and with their multiplicities, exactly the cults that pass all three tests. */
  function FilterCults(cults: Option<seq<Cult>>, f: Filters, currentUserId: Option<string>): (r: Option<seq<Cult>>)
    ensures r.Some? <==> cults.Some?
    ensures cults.Some? ==> IsSubsequence(r.value, cults.value)
    ensures cults.Some? ==> forall c :: c in r.value <==> c in cults.value && Keep(c, f, currentUserId)
    ensures cults.Some? && f.cultType.OnlyType? ==>
              forall c :: c in r.value ==> c.cultType == f.cultType.selected
    ensures cults.Some? && f.activeTab == MyCults ==>
              forall c :: c in r.value ==> c.founderId.Some? && c.founderId == currentUserId
  {
    match cults
    case None => None
    case Some(cs) =>
      var r := FilterSeq(cs, f, currentUserId);
      assert forall c :: c in r <==> multiset(r)[c] > 0;
      Some(r)
  }

  /** With the initial filter values every cult passes, because the empty query is
      contained in every lower-cased name. */
  lemma {:induction false} DefaultFiltersKeepAll(cults: seq<Cult>, currentUserId: Option<string>)
    ensures FilterCults(Some(cults), DefaultFilters(), currentUserId) == Some(cults)
    decreases |cults|
  {
    if cults != [] {
      ContainsEmpty(Lower(cults[0].name));
      assert Lower("") == "";
      DefaultFiltersKeepAll(cults[1..], currentUserId);
      assert cults == [cults[0]] + cults[1..];
    }
  }

  /** The search ignores ASCII case in the query and in the name, and a cult whose
      description is null can match through its name only. */
  lemma SearchMatching(c: Cult, query: string)
    ensures MatchesSearch(c, query) == MatchesSearch(c, Lower(query))
    ensures MatchesSearch(c, query) == MatchesSearch(c.(name := Lower(c.name)), query)
    ensures c.description.None? ==> (MatchesSearch(c, query) <==> Contains(Lower(c.name), Lower(query)))
  {
    LowerIdempotent(query);
    LowerIdempotent(c.name);
  }

  /** A signed-out visitor (no user id) sees nothing under "my cults", not even the
      cults whose founder is null. */
  lemma SignedOutMyCultsIsEmpty(cults: seq<Cult>, f: Filters)
    requires f.activeTab == MyCults
    ensures FilterCults(Some(cults), f, None) == Some([])
  {
  }
}

=== FILE: image_upload.dfy ===
/** The two image upload handlers: a profile's avatar or banner (`ImageUploader`) and
    a cult's logo or banner (`ImageManagement`). Both check the picked file, store it
    in the `profile_assets` bucket under a generated name, then point a column of the
    owner's row at the stored file's public URL. */
module ImageUpload {
  import opened Common

  /** The first file of the picker: its name, MIME type and size in bytes. */
  datatype SelectedFile = SelectedFile(name: string, mimeType: string, size: nat)

  /** 5 MiB. */
  const MaxImageBytes: nat := 5 * 1024 * 1024

  datatype FileCheck = Accepted | NotAnImage | TooLarge

  /** The two guards, the MIME prefix first. */
  function CheckFile(f: SelectedFile): (v: FileCheck)
    ensures v == NotAnImage <==> !IsPrefix("image/", f.mimeType)
    ensures v == TooLarge <==> IsPrefix("image/", f.mimeType) && f.size > MaxImageBytes
    ensures v == Accepted <==> IsPrefix("image/", f.mimeType) && f.size <= MaxImageBytes
  {
    if !IsPrefix("image/", f.mimeType) then NotAnImage
    else if f.size > MaxImageBytes then TooLarge
    else Accepted
  }

  /** The size bound is inclusive, and a file of the wrong type is reported as such
      whatever its size. */
  lemma SizeBound(name: string, mimeType: string)
    ensures IsPrefix("image/", mimeType) ==> CheckFile(SelectedFile(name, mimeType, 5242880)) == Accepted
    ensures IsPrefix("image/", mimeType) ==> CheckFile(SelectedFile(name, mimeType, 5242881)) == TooLarge
    ensures !IsPrefix("image/", mimeType) ==> CheckFile(SelectedFile(name, mimeType, 5242881)) == NotAnImage
  {
  }

  /** `name.split('.').pop()`: the text after the last `'.'`, or the whole name when it
      has none. */
  function Extension(name: string): (ext: string)
    ensures LastPieceOf(name, '.', ext)
    decreases |name|
  {
    if name == [] then []
    else if name[|name| - 1] == '.' then []
    else
      var init := name[..|name| - 1];
      assert name == init + [name[|name| - 1]];
      LastPieceAppend(init, '.', name[|name| - 1], Extension(init));
      Extension(init) + [name[|name| - 1]]
  }

  /** The extension is the last piece of `name.split('.')`. */
  lemma ExtensionIsLastPiece(name: string)
    ensures var parts := SplitOn(name, '.'); Extension(name) == parts[|parts| - 1]
  {
    var parts := SplitOn(name, '.');
    SplitLastPiece(name, '.');
    LastPieceUnique(name, '.', Extension(name), parts[|parts| - 1]);
  }

  /** Whatever precedes the last dot does not change the extension. */
  lemma {:induction false} ExtensionAfterDot(prefix: string, ext: string)
    requires '.' !in ext
    ensures Extension(prefix + "." + ext) == ext
    decreases |ext|
  {
    var s := prefix + "." + ext;
    if ext == [] {
      assert s[|s| - 1] == '.';
    } else {
      var init := ext[..|ext| - 1];
      assert s[..|s| - 1] == prefix + "." + init;
      ExtensionAfterDot(prefix, init);
      assert ext == init + [ext[|ext| - 1]];
    }
  }

  /** `` `${ownerId}_${kind}_${Date.now()}.${fileExt}` ``; `now` is the clock's value in
      milliseconds. */
  function StorageName(ownerId: string, kind: string, now: nat, fileName: string): (r: string)
    ensures ownerId + "_" + kind + "_" <= r
    ensures EndsWith(r, "." + Extension(fileName))
    ensures r == ownerId + "_" + kind + "_" + DecimalString(now) + "." + Extension(fileName)
  {
    var head, digits, tail := ownerId + "_" + kind + "_", DecimalString(now), "." + Extension(fileName);
    Affixes(head, digits, tail);
    head + digits + tail
  }

  /** The stored name keeps the picked file's extension, whatever the owner, the kind
      and the clock. */
  lemma StorageNameKeepsExtension(ownerId: string, kind: string, now: nat, fileName: string)
    ensures Extension(StorageName(ownerId, kind, now, fileName)) == Extension(fileName)
  {
    var prefix, ext := ownerId + "_" + kind + "_" + DecimalString(now), Extension(fileName);
    assert StorageName(ownerId, kind, now, fileName) == prefix + "." + ext;
    ExtensionAfterDot(prefix, ext);
  }

  /** How a handler run ended; the toast it shows follows from it. */
  datatype Outcome =
    | NoFile
    | Rejected(reason: FileCheck)
    | UploadFailed(storedAs: string)
    | UpdateFailed(storedAs: string)
    | Updated(storedAs: string, column: string)

  datatype ProfileImageKind = ProfileImage | ProfileBanner

  function ProfileKindName(k: ProfileImageKind): string {
    if k == ProfileImage then "profile" else "banner"
  }

  /** The `profiles` column an upload of kind `k` sets. */
  function ProfileColumn(k: ProfileImageKind): (c: string)
    ensures c == "profile_image_url" <==> k == ProfileImage
    ensures c == "banner_image_url" <==> k == ProfileBanner
  {
    match k
    case ProfileImage => "profile_image_url"
    case ProfileBanner => "banner_image_url"
  }

  datatype CultImageKind = Logo | CultBanner

  function CultKindName(k: CultImageKind): string {
    if k == Logo then "logo" else "banner"
  }

  /** The `cults` column an upload of kind `k` sets. */
  function CultColumn(k: CultImageKind): (c: string)
    ensures c == "logo_url" <==> k == Logo
    ensures c == "banner_url" <==> k == CultBanner
  {
    match k
    case Logo => "logo_url"
    case CultBanner => "banner_url"
  }

  /** A profile's image uploader. `stored` lists the names written to the bucket and
      `row` is the profile's row; both stand for the backend. */
  class ProfileImageUploader {
    const profileId: string
    var isUploading: bool
    var stored: seq<string>
    var row: map<string, string>

    constructor (profileId: string, row: map<string, string>)
      ensures this.profileId == profileId && this.row == row
      ensures !isUploading && stored == []
    {
      this.profileId := profileId;
      this.row := row;
      isUploading := false;
      stored := [];
    }

    /** `handleImageUpload`. `now` is the clock, `publicUrl` the URL the bucket gives the
        stored name, `uploadOk` and `updateOk` whether the upload and the row update
        report no error. */
    method HandleImageUpload(file: Option<SelectedFile>, kind: ProfileImageKind, now: nat,
                             publicUrl: string, uploadOk: bool, updateOk: bool)
      returns (outcome: Outcome)
      modifies this
      ensures file.None? ==> outcome == NoFile
      ensures file.Some? && CheckFile(file.value) != Accepted ==> outcome == Rejected(CheckFile(file.value))
      ensures outcome.NoFile? || outcome.Rejected? ==> stored == old(stored) && row == old(row)
      ensures file.Some? && CheckFile(file.value) == Accepted ==>
        stored == (if uploadOk then old(stored) + [StorageName(profileId, ProfileKindName(kind), now, file.value.name)] else old(stored))
      ensures file.Some? && CheckFile(file.value) == Accepted ==>
        row == (if uploadOk && updateOk then old(row)[ProfileColumn(kind) := publicUrl] else old(row))
      ensures file.Some? && CheckFile(file.value) == Accepted ==>
        !outcome.NoFile? && !outcome.Rejected? && outcome.storedAs == StorageName(profileId, ProfileKindName(kind), now, file.value.name)
      ensures file.Some? && CheckFile(file.value) == Accepted ==>
        (outcome.UploadFailed? <==> !uploadOk) && (outcome.UpdateFailed? <==> uploadOk && !updateOk)
      ensures outcome.Updated? <==> file.Some? && CheckFile(file.value) == Accepted && uploadOk && updateOk
      ensures outcome.Updated? ==> outcome.column == ProfileColumn(kind)
      ensures outcome.NoFile? || outcome.Rejected? ==> isUploading == old(isUploading)
      ensures !(outcome.NoFile? || outcome.Rejected?) ==> !isUploading
    {
      if file.None? {
        return NoFile;
      }
      var f := file.value;
      var check := CheckFile(f);
      if check != Accepted {
        return Rejected(check);
      }
      isUploading := true;
      var fileName := StorageName(profileId, ProfileKindName(kind), now, f.name);
      if !uploadOk {
        outcome := UploadFailed(fileName);
      } else {
        stored := stored + [fileName];
        if !updateOk {
          outcome := UpdateFailed(fileName);
        } else {
          row := row[ProfileColumn(kind) := publicUrl];
          outcome := Updated(fileName, ProfileColumn(kind));
        }
      }
      isUploading := false;
    }
  }

  /** A cult's logo and banner manager; `stored` and `row` stand for the bucket and the
      cult's row. */
  class CultImageManager {
    const cultId: string
    var isUploading: bool
    var stored: seq<string>
    var row: map<string, string>

    constructor (cultId: string, row: map<string, string>)
      ensures this.cultId == cultId && this.row == row
      ensures !isUploading && stored == []
    {
      this.cultId := cultId;
      this.row := row;
      isUploading := false;
      stored := [];
    }

    /** `handleImageUpload`, with the same inputs as the profile uploader's. */
    method HandleImageUpload(file: Option<SelectedFile>, kind: CultImageKind, now: nat,
                             publicUrl: string, uploadOk: bool, updateOk: bool)
      returns (outcome: Outcome)
      modifies this
      ensures file.None? ==> outcome == NoFile
      ensures file.Some? && CheckFile(file.value) != Accepted ==> outcome == Rejected(CheckFile(file.value))
      ensures outcome.NoFile? || outcome.Rejected? ==> stored == old(stored) && row == old(row)
      ensures file.Some? && CheckFile(file.value) == Accepted ==>
        stored == (if uploadOk then old(stored) + [StorageName(cultId, CultKindName(kind), now, file.value.name)] else old(stored))
      ensures file.Some? && CheckFile(file.value) == Accepted ==>
        row == (if uploadOk && updateOk then old(row)[CultColumn(kind) := publicUrl] else old(row))
      ensures file.Some? && CheckFile(file.value) == Accepted ==>
        !outcome.NoFile? && !outcome.Rejected? && outcome.storedAs == StorageName(cultId, CultKindName(kind), now, file.value.name)
      ensures file.Some? && CheckFile(file.value) == Accepted ==>
        (outcome.UploadFailed? <==> !uploadOk) && (outcome.UpdateFailed? <==> uploadOk && !updateOk)
      ensures outcome.Updated? <==> file.Some? && CheckFile(file.value) == Accepted && uploadOk && updateOk
      ensures outcome.Updated? ==> outcome.column == CultColumn(kind)
      ensures outcome.NoFile? || outcome.Rejected? ==> isUploading == old(isUploading)
      ensures !(outcome.NoFile? || outcome.Rejected?) ==> !isUploading
    {
      if file.None? {
        return NoFile;
      }
      var f := file.value;
      var check := CheckFile(f);
      if check != Accepted {
        return Rejected(check);
      }
      isUploading := true;
      var fileName := StorageName(cultId, CultKindName(kind), now, f.name);
      if !uploadOk {
        outcome := UploadFailed(fileName);
      } else {
        stored := stored + [fileName];
        if !updateOk {
          outcome := UpdateFailed(fileName);
        } else {
          row := row[CultColumn(kind) := publicUrl];
          outcome := Updated(fileName, CultColumn(kind));
        }
      }
      isUploading := false;
    }
  }
}

=== FILE: join.dfy ===
/** Invite redemption on the join page (`handleJoin`): a signed-out visitor is sent to
    sign in with the code remembered; a signed-in one is added to the invite's cult
    and the invite's use counter goes up by one. The two tables and the browser's
    local storage are the page's state; the backend's answers are inputs. */
module JoinInvite {
  import opened Common

  /** A `cult_invites` row, keyed by its code. `currentUses` may be null. */
  datatype Invite = Invite(cultId: string, currentUses: Option<int>, maxUses: Option<int>, expiresAt: Option<string>)

  /** A `cult_members` row. */
  datatype Membership = Membership(cultId: string, profileId: string)

  datatype JoinOutcome = SentToAuth | InvalidCode | JoinFailed | Joined(cultId: string)

  /** Local storage's `pendingInvite`, the two tables, and how the call ended. */
  datatype Redemption = Redemption(
    pendingInvite: Option<string>,
    invites: map<string, Invite>,
    members: seq<Membership>,
    outcome: JoinOutcome)

  /** `(invite.current_uses || 0) + 1`: null counts as no use so far (and `0 || 0`
      is `0` again). */
  function NextUses(uses: Option<int>): (n: int)
    ensures uses.None? ==> n == 1
    ensures uses.Some? ==> n == uses.value + 1
  {
    (if uses.Some? then uses.value else 0) + 1
  }

  /** Where the page navigates after the call, if anywhere. */
  function Destination(outcome: JoinOutcome): Option<string> {
    match outcome
    case SentToAuth => Some("/auth")
    case Joined(cultId) => Some("/cult/" + cultId)
    case _ => None
  }

  /** `handleJoin` for the route's `code`; `session` is the signed-in user's id,
      `insertOk` and `updateOk` whether the membership insert and the counter update
      report no error. */
  function Redeem(pendingInvite: Option<string>, invites: map<string, Invite>, members: seq<Membership>,
                  code: string, session: Option<string>, insertOk: bool, updateOk: bool): (r: Redemption)
    ensures session.None? ==>
      r == Redemption(Some(code), invites, members, SentToAuth)
    ensures session.Some? ==> r.pendingInvite == pendingInvite
    ensures session.Some? && code !in invites ==>
      r.invites == invites && r.members == members && r.outcome == InvalidCode
    ensures session.Some? && code in invites && !insertOk ==>
      r.invites == invites && r.members == members && r.outcome == JoinFailed
    ensures session.Some? && code in invites && insertOk ==>
      r.members == members + [Membership(invites[code].cultId, session.value)]
    ensures session.Some? && code in invites && insertOk && !updateOk ==>
      r.invites == invites && r.outcome == JoinFailed
    ensures session.Some? && code in invites && insertOk && updateOk ==>
      && r.invites.Keys == invites.Keys
      && r.invites[code].currentUses == Some(NextUses(invites[code].currentUses))
      && r.invites[code].cultId == invites[code].cultId
      && r.invites[code].maxUses == invites[code].maxUses
      && r.invites[code].expiresAt == invites[code].expiresAt
      && (forall c :: c in invites && c != code ==> r.invites[c] == invites[c])
      && r.outcome == Joined(invites[code].cultId)
    ensures r.outcome.Joined? <==> session.Some? && code in invites && insertOk && updateOk
  {
    if session.None? then Redemption(Some(code), invites, members, SentToAuth)
    else if code !in invites then Redemption(pendingInvite, invites, members, InvalidCode)
    else
      var invite := invites[code];
      if !insertOk then Redemption(pendingInvite, invites, members, JoinFailed)
      else
        var members' := members + [Membership(invite.cultId, session.value)];
        if !updateOk then Redemption(pendingInvite, invites, members', JoinFailed)
        else
          var invites' := invites[code := invite.(currentUses := Some(NextUses(invite.currentUses)))];
          Redemption(pendingInvite, invites', members', Joined(invite.cultId))
  }

  /** The invite's limit and expiry play no part: an invite used up to its maximum,
      whatever its expiry, is redeemed like any other. */
  lemma LimitsIgnored(invites: map<string, Invite>, members: seq<Membership>, code: string, user: string,
                      maxUses: Option<int>, expiresAt: Option<string>)
    requires code in invites
    ensures var inv := invites[code];
            var other := invites[code := inv.(maxUses := maxUses, expiresAt := expiresAt)];
            && Redeem(None, other, members, code, Some(user), true, true).outcome
               == Redeem(None, invites, members, code, Some(user), true, true).outcome
            && Redeem(None, other, members, code, Some(user), true, true).members
               == Redeem(None, invites, members, code, Some(user), true, true).members
  {
  }

  /** Two successful redemptions of the same code by the same user add two identical
      membership rows and raise the counter by two: nothing on the page stops a second
      use. */
  lemma {:induction false} RedeemTwice(invites: map<string, Invite>, members: seq<Membership>, code: string, user: string)
    requires code in invites && invites[code].currentUses.Some? && invites[code].currentUses.value >= 0
    ensures var r1 := Redeem(None, invites, members, code, Some(user), true, true);
            var r2 := Redeem(r1.pendingInvite, r1.invites, r1.members, code, Some(user), true, true);
            && r2.invites[code].currentUses == Some(invites[code].currentUses.value + 2)
            && r2.members == members + [Membership(invites[code].cultId, user), Membership(invites[code].cultId, user)]
  {
    var r1 := Redeem(None, invites, members, code, Some(user), true, true);
    assert r1.invites[code].currentUses == Some(invites[code].currentUses.value + 1);
    assert r1.invites[code].cultId == invites[code].cultId;
  }

  /** The join page for the route `/join/:code`. */
  class JoinPage {
    const code: string
    var pendingInvite: Option<string>
    var invites: map<string, Invite>
    var members: seq<Membership>

    constructor (code: string, pendingInvite: Option<string>, invites: map<string, Invite>, members: seq<Membership>)
      ensures this.code == code && this.pendingInvite == pendingInvite
      ensures this.invites == invites && this.members == members
    {
      this.code := code;
      this.pendingInvite := pendingInvite;
      this.invites := invites;
      this.members := members;
    }

    /** `handleJoin`; `nav` is where the page navigates. */
    method HandleJoin(session: Option<string>, insertOk: bool, updateOk: bool) returns (outcome: JoinOutcome, nav: Option<string>)
      modifies this
      ensures Redemption(pendingInvite, invites, members, outcome)
              == Redeem(old(pendingInvite), old(invites), old(members), code, session, insertOk, updateOk)
      ensures nav == Destination(outcome)
    {
      if session.None? {
        pendingInvite := Some(code);
        return SentToAuth, Some("/auth");
      }
      if code !in invites {
        return InvalidCode, None;
      }
      var invite := invites[code];
      if !insertOk {
        return JoinFailed, None;
      }
      members := members + [Membership(invite.cultId, session.value)];
      if !updateOk {
        return JoinFailed, None;
      }
      var uses := if invite.currentUses.Some? then invite.currentUses.value else 0;
      invites := invites[code := invite.(currentUses := Some(uses + 1))];
      outcome := Joined(invite.cultId);
      nav := Some("/cult/" + invite.cultId);
    }
  }
}

=== FILE: links.dfy ===
/** The dashboard's "Important Links" card (`LinksSection`): a list of links, a draft
    being typed, a validated append and a wholesale replacement by generated links. */
module Links {
  import opened Common

  datatype Link = Link(title: string, url: string)

  /** The list the card starts with. */
  const InitialLinks: seq<Link> := [
    Link("ElizaOS Website", "https://elizaos.com"),
    Link("Developer Documentation", "https://docs.elizaos.com"),
    Link("Community Forum", "https://community.elizaos.com")
  ]

  const EmptyDraft := Link("", "")

  datatype LinksState = LinksState(links: seq<Link>, draft: Link)

  /** `handleAddLink`: a draft with both fields filled goes to the end of the list and
      the draft is cleared; otherwise nothing changes. */
  function Added(s: LinksState): (r: LinksState)
    ensures s.draft.title == "" || s.draft.url == "" ==> r == s
    ensures s.draft.title != "" && s.draft.url != "" ==>
      && |r.links| == |s.links| + 1
      && r.links[..|s.links|] == s.links
      && r.links[|s.links|] == s.draft
      && r.draft == EmptyDraft
    ensures multiset(r.links) == multiset(s.links) + (if r == s then multiset{} else multiset{s.draft})
  {
    if s.draft.title == "" || s.draft.url == "" then s
    else LinksState(s.links + [s.draft], EmptyDraft)
  }

  /** `handleGenerateLinks`: a result replaces the list, none leaves it. */
  function Generated(s: LinksState, generated: Option<seq<Link>>): (r: LinksState)
    ensures generated.None? ==> r == s
    ensures generated.Some? ==> r.links == generated.value
    ensures r.draft == s.draft
  {
    if generated.Some? then s.(links := generated.value) else s
  }

  /** Nothing checks for duplicates: typing the same link twice and adding it each time
      puts it in the list twice more. */
  lemma DuplicatesAccepted(links: seq<Link>, l: Link)
    requires l.title != "" && l.url != ""
    ensures var once := Added(LinksState(links, l));
            var twice := Added(once.(draft := l));
            && twice.links == links + [l, l]
            && multiset(twice.links)[l] == multiset(links)[l] + 2
  {
    var once := Added(LinksState(links, l));
    assert once.links == links + [l];
    assert links + [l] + [l] == links + [l, l];
  }

  /** The links of the opening list are well formed, so adding any of them again is
      accepted. */
  lemma InitialLinksAddable(i: int)
    requires 0 <= i < |InitialLinks|
    ensures Added(LinksState(InitialLinks, InitialLinks[i])).links == InitialLinks + [InitialLinks[i]]
  {
  }

  class LinksSection {
    var links: seq<Link>
    var draft: Link

    function State(): LinksState
      reads this
    {
      LinksState(links, draft)
    }

    constructor ()
      ensures links == InitialLinks && draft == EmptyDraft
    {
      links := InitialLinks;
      draft := EmptyDraft;
    }

    /** The two inputs of the add dialog. */
    method SetDraft(title: string, url: string)
      modifies this
      ensures draft == Link(title, url) && links == old(links)
    {
      draft := Link(title, url);
    }

    /** `handleAddLink`; `added` tells the success toast from the error toast. */
    method HandleAddLink() returns (added: bool)
      modifies this
      ensures State() == Added(old(State()))
      ensures added <==> old(draft).title != "" && old(draft).url != ""
    {
      if draft.title == "" || draft.url == "" {
        return false;
      }
      links := links + [draft];
      draft := EmptyDraft;
      added := true;
    }

    /** `handleGenerateLinks`; `generated` is the AI helper's result. */
    method HandleGenerateLinks(generated: Option<seq<Link>>)
      modifies this
      ensures State() == Generated(old(State()), generated)
    {
      if generated.Some? {
        links := generated.value;
      }
    }
  }
}

=== FILE: name_field.dfy ===
/** The create-cult form's name field (`NameField`): typing a name of two or more
    characters offers an AI button, which disappears for good once a generation has
    completed. */
module NameField {

  datatype NameFieldState = NameFieldState(
    formName: string,
    showGenerateButton: bool,
    isGenerating: bool,
    hasGenerated: bool)

  const InitialNameField := NameFieldState("", false, false, false)

  /** `handleNameChange`: the form gets the value as typed. */
  function Changed(s: NameFieldState, value: string): (r: NameFieldState)
    ensures r.formName == value
    ensures r.showGenerateButton <==> |value| >= 2
    ensures r.isGenerating == s.isGenerating && r.hasGenerated == s.hasGenerated
  {
    s.(formName := value, showGenerateButton := |value| >= 2)
  }

  /** `handleGenerateClick` once `onNameEntered` has settled: `hasCallback` says whether
      the callback was given, `callbackOk` whether it completed without throwing. */
  function Clicked(s: NameFieldState, hasCallback: bool, callbackOk: bool): (r: NameFieldState)
    ensures !hasCallback ==> r == s
    ensures hasCallback ==> !r.isGenerating
    ensures r.hasGenerated <==> s.hasGenerated || (hasCallback && callbackOk)
    ensures r.formName == s.formName && r.showGenerateButton == s.showGenerateButton
  {
    if !hasCallback then s
    else s.(isGenerating := false, hasGenerated := s.hasGenerated || callbackOk)
  }

  /** The AI button is rendered. */
  predicate ButtonShown(s: NameFieldState) {
    s.showGenerateButton && !s.hasGenerated
  }

  datatype FieldEvent = Type(value: string) | Click(hasCallback: bool, callbackOk: bool)

  function Step(s: NameFieldState, e: FieldEvent): NameFieldState {
    match e
    case Type(value) => Changed(s, value)
    case Click(hasCallback, callbackOk) => Clicked(s, hasCallback, callbackOk)
  }

  function Replay(s: NameFieldState, events: seq<FieldEvent>): NameFieldState
    decreases |events|
  {
    if events == [] then s else Replay(Step(s, events[0]), events[1..])
  }

  /** Once a generation has completed, no typing or clicking brings the button back. */
  lemma {:induction false} GeneratedIsFinal(s: NameFieldState, events: seq<FieldEvent>)
    requires s.hasGenerated
    ensures Replay(s, events).hasGenerated && !ButtonShown(Replay(s, events))
    decreases |events|
  {
    if events != [] {
      GeneratedIsFinal(Step(s, events[0]), events[1..]);
    }
  }

  /** Before any generation, the button is shown exactly when the last value typed has
      at least two characters; a failed generation leaves it shown. */
  lemma {:induction false} ButtonFollowsLastValue(s: NameFieldState, events: seq<FieldEvent>, value: string)
    requires !s.hasGenerated
    requires forall i :: 0 <= i < |events| && events[i].Click? ==> !events[i].callbackOk
    ensures ButtonShown(Replay(s, events + [Type(value)])) <==> |value| >= 2
    decreases |events|
  {
    if events == [] {
      assert events + [Type(value)] == [Type(value)];
    } else {
      assert (events + [Type(value)])[1..] == events[1..] + [Type(value)];
      ButtonFollowsLastValue(Step(s, events[0]), events[1..], value);
    }
  }

  class NameFieldWidget {
    var formName: string
    var showGenerateButton: bool
    var isGenerating: bool
    var hasGenerated: bool

    function State(): NameFieldState
      reads this
    {
      NameFieldState(formName, showGenerateButton, isGenerating, hasGenerated)
    }

    constructor ()
      ensures State() == InitialNameField
    {
      formName := "";
      showGenerateButton := false;
      isGenerating := false;
      hasGenerated := false;
    }

    /** `handleNameChange`. */
    method HandleNameChange(value: string)
      modifies this
      ensures State() == Changed(old(State()), value)
    {
      formName := value;
      showGenerateButton := |value| >= 2;
    }

    /** `handleGenerateClick`; `rethrown` is whether the callback's error leaves the
        handler (there is no `catch`, only the `finally`). */
    method HandleGenerateClick(hasCallback: bool, callbackOk: bool) returns (rethrown: bool)
      modifies this
      ensures State() == Clicked(old(State()), hasCallback, callbackOk)
      ensures rethrown <==> hasCallback && !callbackOk
    {
      rethrown := false;
      if hasCallback {
        isGenerating := true;
        if callbackOk {
          hasGenerated := true;
        } else {
          rethrown := true;
        }
        isGenerating := false;
      }
    }

    function ButtonVisible(): (shown: bool)
      reads this
      ensures shown <==> showGenerateButton && !hasGenerated
    {
      ButtonShown(State())
    }
  }
}

=== FILE: overseer.dfy ===
/** The Overseer's scripted conversation (`OverseerConversation`): lines revealed one
    character at a time, a name prompt, and a choice between the AI and a manual
    path, both ending in form values derived from the name. */
module Overseer {
  import opened Common
  import CultForm

  const Placeholder := "{cultName}"

  /** The third line, around its placeholder. */
  const ChoiceLead := "Ah, "
  const ChoiceRest := "... an intriguing choice. Shall we consult the ancient AI to forge your cult's destiny?"

  const Conversations: seq<string> := [
    "Welcome, seeker of truth. I am the Overseer, guardian of all cults.",
    "Tell me, what name shall your cult bear?",
    ChoiceLead + Placeholder + ChoiceRest,
    "Very well. Let us proceed with the ancient rites of creation..."
  ]

  /** Occurrence at `j >= 1` in `s` is occurrence at `j - 1` in `s` without its head. */
  lemma OccursShift(s: string, sub: string, j: int)
    requires s != [] && j >= 1
    ensures OccursAt(s, sub, j) <==> OccursAt(s[1..], sub, j - 1)
  {
    if j <= |s| - |sub| {
      forall k | j <= k < j + |sub|
        ensures s[k] == s[1..][k - 1]
      {
      }
      assert s[j..j + |sub|] == s[1..][j - 1..j - 1 + |sub|];
    }
  }

  /** `s.indexOf(sub)` when `sub` occurs. */
  function FirstOccurrence(s: string, sub: string): (i: nat)
    requires Contains(s, sub)
    ensures OccursAt(s, sub, i)
    ensures forall j :: 0 <= j < i ==> !OccursAt(s, sub, j)
    decreases |s|
  {
    if IsPrefix(sub, s) then 0
    else
      var k := FirstOccurrence(s[1..], sub);
      OccursShift(s, sub, k + 1);
      forall j | 1 <= j < k + 1
        ensures !OccursAt(s, sub, j)
      {
        OccursShift(s, sub, j);
      }
      k + 1
  }

  /** The replacement text of `String.prototype.replace` with a string pattern:
      `$$` is a dollar sign, `` $& `` the match, `` $` `` the text before it, `$'` the
      text after it; any other `$` is kept. Without a dollar sign the text is used as
      it is. */
  function Substitution(rep: string, matched: string, before: string, after: string): (r: string)
    ensures '$' !in rep ==> r == rep
    ensures rep == "$&" ==> r == matched
    ensures rep == "$$" ==> r == "$"
    decreases |rep|
  {
    if rep == [] then []
    else if rep[0] == '$' && |rep| >= 2 && rep[1] == '$' then "$" + Substitution(rep[2..], matched, before, after)
    else if rep[0] == '$' && |rep| >= 2 && rep[1] == '&' then matched + Substitution(rep[2..], matched, before, after)
    else if rep[0] == '$' && |rep| >= 2 && rep[1] == '`' then before + Substitution(rep[2..], matched, before, after)
    else if rep[0] == '$' && |rep| >= 2 && rep[1] == '\'' then after + Substitution(rep[2..], matched, before, after)
    else
      assert rep == [rep[0]] + rep[1..];
      [rep[0]] + Substitution(rep[1..], matched, before, after)
  }

  /** `s.replace(pat, rep)` with a string pattern: only the first occurrence changes. */
  function ReplaceFirst(s: string, pat: string, rep: string): (r: string)
    ensures !Contains(s, pat) ==> r == s
  {
    if !Contains(s, pat) then s
    else
      var i := FirstOccurrence(s, pat);
      s[..i] + Substitution(rep, pat, s[..i], s[i + |pat|..]) + s[i + |pat|..]
  }

  /** Whatever the replacement, the text before the first occurrence and the text after
      it (further occurrences included) are kept, and `Substitution`'s text for that
      occurrence goes in between. */
  lemma ReplaceFirstAt(s: string, pat: string, rep: string, i: int)
    requires OccursAt(s, pat, i) && forall j :: 0 <= j < i ==> !OccursAt(s, pat, j)
    ensures ReplaceFirst(s, pat, rep) == s[..i] + Substitution(rep, pat, s[..i], s[i + |pat|..]) + s[i + |pat|..]
  {
    assert FirstOccurrence(s, pat) == i by {
      var k := FirstOccurrence(s, pat);
      assert !(k < i) && !(i < k);
    }
  }

  /** For a replacement without `$`, the replacement itself goes in place of the first
      occurrence. */
  lemma ReplaceFirstPlain(s: string, pat: string, rep: string, i: int)
    requires '$' !in rep
    requires OccursAt(s, pat, i) && forall j :: 0 <= j < i ==> !OccursAt(s, pat, j)
    ensures ReplaceFirst(s, pat, rep) == s[..i] + rep + s[i + |pat|..]
  {
    ReplaceFirstAt(s, pat, rep, i);
  }

  /** The placeholder of the third line sits after `ChoiceLead`, and nowhere before. */
  lemma PlaceholderInThirdLine()
    ensures Conversations[2][..4] == ChoiceLead && Conversations[2][14..] == ChoiceRest
    ensures OccursAt(Conversations[2], Placeholder, 4)
    ensures forall j :: 0 <= j < 4 ==> !OccursAt(Conversations[2], Placeholder, j)
  {
    var t := Conversations[2];
    assert t[..4] == ChoiceLead;
    assert t[4..14] == Placeholder;
    assert t[14..] == ChoiceRest;
    forall j | 0 <= j < 4
      ensures !OccursAt(t, Placeholder, j)
    {
      assert t[j] == ChoiceLead[j] != '{' == Placeholder[0];
      assert t[j..j + |Placeholder|][0] == t[j];
    }
  }

  /** The third line with a plain name reads "Ah, <name>... an intriguing choice. ...",
      and with the name `$&` it shows the placeholder itself. */
  lemma ThirdLine(name: string)
    requires '$' !in name
    ensures ReplaceFirst(Conversations[2], Placeholder, name) == ChoiceLead + name + ChoiceRest
    ensures ReplaceFirst(Conversations[2], Placeholder, "$&") == Conversations[2]
  {
    var t := Conversations[2];
    PlaceholderInThirdLine();
    ReplaceFirstPlain(t, Placeholder, name, 4);
    ReplaceFirstAt(t, Placeholder, "$&", 4);
    assert t[..4] + Placeholder + t[4 + |Placeholder|..] == t;
  }

  /** `$'` followed by text without `$` gives the text after the match, then that text. */
  lemma SubstitutionAfter(text: string, matched: string, before: string, after: string)
    requires '$' !in text
    ensures Substitution("$'" + text, matched, before, after) == after + text
  {
    var rep := "$'" + text;
    assert rep[0] == '$' && rep[1] == '\'' && rep[2..] == text;
  }

  /** The name `$$` shows a single dollar sign in the third line. */
  lemma ThirdLineDollar()
    ensures ReplaceFirst(Conversations[2], Placeholder, "$$") == ChoiceLead + "$" + ChoiceRest
  {
    PlaceholderInThirdLine();
    ReplaceFirstAt(Conversations[2], Placeholder, "$$", 4);
  }

  /** A name of `$'` followed by a plain name shows the rest of the line before that
      name. */
  lemma ThirdLineAfter(name: string)
    requires '$' !in name
    ensures ReplaceFirst(Conversations[2], Placeholder, "$'" + name) == ChoiceLead + ChoiceRest + name + ChoiceRest
  {
    PlaceholderInThirdLine();
    ReplaceFirstAt(Conversations[2], Placeholder, "$'" + name, 4);
    SubstitutionAfter(name, Placeholder, ChoiceLead, ChoiceRest);
  }

  predicate SpaceFree(s: string) {
    forall i :: 0 <= i < |s| ==> !IsSpace(s[i])
  }

  /** A non-empty run of white space only. */
  predicate SpaceRun(w: string) {
    w != [] && forall i :: 0 <= i < |w| ==> IsSpace(w[i])
  }

  /** The scan behind `s.replace(/\s+/g, rep)`: `inRun` says the character before `s`
      was white space that has already been replaced, so a run continuing here adds
      nothing more. */
  function ReplaceRuns(s: string, rep: string, inRun: bool): string
    decreases |s|
  {
    if s == [] then []
    else if IsSpace(s[0]) then (if inRun then [] else rep) + ReplaceRuns(s[1..], rep, true)
    else [s[0]] + ReplaceRuns(s[1..], rep, false)
  }

  /** A replacement free of white space leaves none. */
  lemma {:induction false} RunsLeaveNoSpace(s: string, rep: string, inRun: bool)
    requires SpaceFree(rep)
    ensures SpaceFree(ReplaceRuns(s, rep, inRun))
    decreases |s|
  {
    if s != [] {
      RunsLeaveNoSpace(s[1..], rep, IsSpace(s[0]));
    }
  }

  /** A replacement of at most one character never lengthens the text. */
  lemma {:induction false} RunsNoLonger(s: string, rep: string, inRun: bool)
    requires |rep| <= 1
    ensures |ReplaceRuns(s, rep, inRun)| <= |s|
    decreases |s|
  {
    if s != [] {
      RunsNoLonger(s[1..], rep, IsSpace(s[0]));
    }
  }

  /** `s.replace(/\s+/g, rep)`: every maximal run of white space becomes one `rep`.
      With a replacement free of white space none is left, text without white space
      is left alone, and a replacement of at most one character never lengthens. */
  function ReplaceSpaceRuns(s: string, rep: string): (r: string)
    ensures SpaceFree(rep) ==> SpaceFree(r)
    ensures SpaceFree(s) ==> r == s
    ensures |rep| <= 1 ==> |r| <= |s|
  {
    var r := ReplaceRuns(s, rep, false);
    assert (SpaceFree(rep) ==> SpaceFree(r)) && (SpaceFree(s) ==> r == s) && (|rep| <= 1 ==> |r| <= |s|) by {
      if SpaceFree(s) {
        NothingToReplace(s, rep, false);
      }
      if SpaceFree(rep) {
        RunsLeaveNoSpace(s, rep, false);
      }
      if |rep| <= 1 {
        RunsNoLonger(s, rep, false);
      }
    }
    r
  }

  /** Text without white space is copied whatever came before it. */
  lemma {:induction false} NothingToReplace(s: string, rep: string, inRun: bool)
    requires SpaceFree(s)
    ensures ReplaceRuns(s, rep, inRun) == s
    decreases |s|
  {
    if s != [] {
      NothingToReplace(s[1..], rep, false);
      assert s == [s[0]] + s[1..];
    }
  }

  /** Inside a run, further white space adds nothing. */
  lemma {:induction false} RunContinues(w: string, q: string, rep: string)
    requires forall i :: 0 <= i < |w| ==> IsSpace(w[i])
    ensures ReplaceRuns(w + q, rep, true) == ReplaceRuns(q, rep, true)
    decreases |w|
  {
    if w == [] {
      assert w + q == q;
    } else {
      assert (w + q)[0] == w[0] && (w + q)[1..] == w[1..] + q;
      RunContinues(w[1..], q, rep);
    }
  }

  /** Where the text does not start with white space, the flag does not matter. */
  lemma RunEnded(q: string, rep: string)
    requires q == [] || !IsSpace(q[0])
    ensures ReplaceRuns(q, rep, true) == ReplaceRuns(q, rep, false)
  {
  }

  /** One step of the scan: what the first character contributes. */
  function StepOutput(c: char, rep: string, inRun: bool): string {
    if !IsSpace(c) then [c] else if inRun then [] else rep
  }

  lemma ReplaceRunsStep(s: string, rep: string, inRun: bool)
    requires s != []
    ensures ReplaceRuns(s, rep, inRun) == StepOutput(s[0], rep, inRun) + ReplaceRuns(s[1..], rep, IsSpace(s[0]))
  {
  }

  /** After a character other than white space the scan starts afresh. */
  lemma {:induction false} ReplaceRunsAppend(p: string, x: string, rep: string, inRun: bool)
    requires p != [] && !IsSpace(p[|p| - 1])
    ensures ReplaceRuns(p + x, rep, inRun) == ReplaceRuns(p, rep, inRun) + ReplaceRuns(x, rep, false)
    decreases |p|
  {
    var s := p + x;
    assert s[0] == p[0] && s[1..] == p[1..] + x;
    ReplaceRunsStep(s, rep, inRun);
    ReplaceRunsStep(p, rep, inRun);
    var head := StepOutput(p[0], rep, inRun);
    if |p| == 1 {
      assert p[1..] + x == x && p[1..] == [];
    } else {
      ReplaceRunsAppend(p[1..], x, rep, IsSpace(p[0]));
      var rp, rx := ReplaceRuns(p[1..], rep, IsSpace(p[0])), ReplaceRuns(x, rep, false);
      assert head + (rp + rx) == (head + rp) + rx;
    }
  }

  /** A leading run becomes one replacement. */
  lemma RunAtStart(w: string, q: string, rep: string)
    requires SpaceRun(w)
    requires q == [] || !IsSpace(q[0])
    ensures ReplaceRuns(w + q, rep, false) == rep + ReplaceRuns(q, rep, false)
  {
    assert (w + q)[0] == w[0] && (w + q)[1..] == w[1..] + q;
    RunContinues(w[1..], q, rep);
    RunEnded(q, rep);
  }

  /** Exactly one replacement for each maximal run: a run between text that does not
      end in white space and text that does not start with it becomes one `rep`,
      and the text on either side is replaced on its own. */
  lemma RunBetween(p: string, w: string, q: string, rep: string)
    requires SpaceRun(w)
    requires p == [] || !IsSpace(p[|p| - 1])
    requires q == [] || !IsSpace(q[0])
    ensures ReplaceSpaceRuns(p + w + q, rep) == ReplaceSpaceRuns(p, rep) + rep + ReplaceSpaceRuns(q, rep)
  {
    RunsBetween(p, w, q, rep);
  }

  lemma RunsBetween(p: string, w: string, q: string, rep: string)
    requires SpaceRun(w)
    requires p == [] || !IsSpace(p[|p| - 1])
    requires q == [] || !IsSpace(q[0])
    ensures ReplaceRuns(p + w + q, rep, false) == ReplaceRuns(p, rep, false) + rep + ReplaceRuns(q, rep, false)
  {
    if p == [] {
      assert p + w + q == w + q;
      RunAtStart(w, q, rep);
    } else {
      RunAfterText(p, w, q, rep);
    }
  }

  lemma RunAfterText(p: string, w: string, q: string, rep: string)
    requires SpaceRun(w)
    requires p != [] && !IsSpace(p[|p| - 1])
    requires q == [] || !IsSpace(q[0])
    ensures ReplaceRuns(p + w + q, rep, false) == ReplaceRuns(p, rep, false) + rep + ReplaceRuns(q, rep, false)
  {
    var wq := w + q;
    assert p + w + q == p + wq;
    ReplaceRunsAppend(p, wq, rep, false);
    RunAtStart(w, q, rep);
    var rp, rq := ReplaceRuns(p, rep, false), ReplaceRuns(q, rep, false);
    assert rp + (rep + rq) == rp + rep + rq;
  }

  /** Replacing white-space runs twice is replacing them once. */
  lemma ReplaceSpaceRunsIdempotent(s: string, rep: string)
    requires SpaceFree(rep)
    ensures ReplaceSpaceRuns(ReplaceSpaceRuns(s, rep), rep) == ReplaceSpaceRuns(s, rep)
  {
  }

  /** The characters of `s` that are not white space, in order. */
  function RemoveSpaces(s: string): (r: string)
    ensures |r| <= |s|
    ensures SpaceFree(r)
    decreases |s|
  {
    if s == [] then [] else if IsSpace(s[0]) then RemoveSpaces(s[1..]) else [s[0]] + RemoveSpaces(s[1..])
  }

  /** Replacing every white-space run by nothing is filtering the white space out. */
  lemma {:induction false} ReplaceByNothingRemoves(s: string, inRun: bool)
    ensures ReplaceRuns(s, "", inRun) == RemoveSpaces(s)
    decreases |s|
  {
    if s != [] {
      ReplaceByNothingRemoves(s[1..], IsSpace(s[0]));
    }
  }

  /** `cultName.toLowerCase().replace(/\s+/g, '-')`: no white space is left, it is
      no longer than the name, and replacing again changes nothing. */
  function CustomUrl(name: string): (url: string)
    ensures SpaceFree(url) && |url| <= |name|
    ensures ReplaceSpaceRuns(url, "-") == url
  {
    ReplaceSpaceRuns(Lower(name), "-")
  }

  /** `cultName.toLowerCase().replace(/\s+/g, '')`: the lower-cased name without its
      white space. */
  function TwitterHandle(name: string): (handle: string)
    ensures handle == RemoveSpaces(Lower(name))
  {
    ReplaceByNothingRemoves(Lower(name), false);
    ReplaceSpaceRuns(Lower(name), "")
  }

  /** Lower-casing keeps where the runs are. */
  lemma LowerRun(w: string)
    requires SpaceRun(w)
    ensures Lower(w) == w
  {
    forall i | 0 <= i < |w|
      ensures Lower(w)[i] == w[i]
    {
      LowerKeepsSpace(w[i]);
    }
  }

  /** In the derived URL each maximal white-space run of the name is one `-`, and the
      text on either side is derived on its own. */
  lemma CustomUrlRuns(p: string, w: string, q: string)
    requires SpaceRun(w)
    requires p == [] || !IsSpace(p[|p| - 1])
    requires q == [] || !IsSpace(q[0])
    ensures CustomUrl(p + w + q) == CustomUrl(p) + "-" + CustomUrl(q)
  {
    LowerAppend(p + w, q);
    LowerAppend(p, w);
    LowerRun(w);
    if p != [] {
      LowerKeepsSpace(p[|p| - 1]);
    }
    if q != [] {
      LowerKeepsSpace(q[0]);
    }
    RunBetween(Lower(p), w, Lower(q), "-");
  }

  /** A leading white-space run becomes a single leading hyphen. */
  lemma LeadingRunBecomesHyphen(w: string, q: string)
    requires SpaceRun(w)
    requires q == [] || !IsSpace(q[0])
    ensures CustomUrl(w + q) == "-" + CustomUrl(q)
  {
    LowerAppend(w, q);
    LowerRun(w);
    if q != [] {
      LowerKeepsSpace(q[0]);
    }
    var lq := Lower(q);
    RunAtStart(w, lq, "-");
    assert CustomUrl(w + q) == ReplaceRuns(w + lq, "-", false);
    assert CustomUrl(q) == ReplaceRuns(lq, "-", false);
  }

  /** A trailing white-space run becomes a single trailing hyphen. */
  lemma TrailingRunBecomesHyphen(p: string, w: string)
    requires SpaceRun(w)
    requires p == [] || !IsSpace(p[|p| - 1])
    ensures CustomUrl(p + w) == CustomUrl(p) + "-"
  {
    CustomUrlRuns(p, w, []);
    assert p + w + [] == p + w;
    assert Lower([]) == [];
  }

  /** A name of ASCII letters, digits, hyphens and white space. */
  predicate SlugSafe(name: string) {
    forall i :: 0 <= i < |name| ==>
      ('a' <= name[i] <= 'z') || ('A' <= name[i] <= 'Z') || ('0' <= name[i] <= '9') || name[i] == '-' || IsSpace(name[i])
  }

  predicate SlugChars(s: string) {
    forall i :: 0 <= i < |s| ==> ('a' <= s[i] <= 'z') || ('0' <= s[i] <= '9') || s[i] == '-'
  }

  lemma {:induction false} SlugCharsOfRuns(s: string, inRun: bool)
    requires forall i :: 0 <= i < |s| ==> ('a' <= s[i] <= 'z') || ('0' <= s[i] <= '9') || s[i] == '-' || IsSpace(s[i])
    ensures SlugChars(ReplaceRuns(s, "-", inRun))
    decreases |s|
  {
    if s != [] {
      SlugCharsOfRuns(s[1..], IsSpace(s[0]));
    }
  }

  /** The derived URL passes the form schema's slug rule when the name is non-empty
      and made of letters, digits, hyphens and white space. */
  lemma CustomUrlIsSlug(name: string)
    requires name != [] && SlugSafe(name)
    ensures CultForm.IsSlug(CustomUrl(name))
  {
    SlugCharsOfRuns(Lower(name), false);
  }

  /** One other character such as a dot is kept, and the URL fails the slug rule. */
  lemma DottedNameNotSlug()
    ensures CustomUrl("a.b") == "a.b"
    ensures !CultForm.IsSlug(CustomUrl("a.b"))
  {
    assert Lower("a.b") == "a.b";
    assert SpaceFree("a.b");
    assert "a.b"[1] == '.';
  }

  /** What the AI helper returns for the Overseer: it is asked for a description, a
      theme colour and a Twitter handle. */
  datatype Concept = Concept(description: string, themeColor: string, twitterHandle: Option<string>)

  const ManualDescription := "A mysterious new cult emerges from the shadows..."

  /** The values `handleAIChoice` passes to `onComplete`, if it calls it: `info` is the
      AI helper's result on the AI path. */
  function Completion(choice: bool, cultName: string, info: Option<Concept>): (v: Option<CultForm.FormValues>)
    ensures v.None? <==> choice && info.None?
    ensures v.Some? ==> v.value.name == cultName && v.value.cultType == "dev"
    ensures v.Some? ==> v.value.customUrl == Some(CustomUrl(cultName))
    ensures v.Some? && !choice ==>
      && v.value.description == ManualDescription
      && v.value.themeColor == CultForm.DefaultThemeColor
      && v.value.twitterHandle == Some(RemoveSpaces(Lower(cultName)))
    ensures v.Some? && choice ==>
      && v.value.description == info.value.description
      && v.value.themeColor == info.value.themeColor
      && v.value.twitterHandle == info.value.twitterHandle
  {
    if choice then
      if info.None? then None
      else Some(CultForm.FormValues(cultName, info.value.description, info.value.themeColor,
                                    info.value.twitterHandle, "dev", Some(CustomUrl(cultName))))
    else
      Some(CultForm.FormValues(cultName, ManualDescription, "#2D1B69", Some(TwitterHandle(cultName)),
                               "dev", Some(CustomUrl(cultName))))
  }

  /** The name input and its button are rendered only on step 1 once the line is
      typed; the two choice buttons only on step 2. */
  predicate NameInputVisible(step: int, showInput: bool) {
    showInput && step == 1
  }

  predicate ChoiceVisible(step: int, showInput: bool) {
    showInput && step == 2
  }

  /** The user's possible moves, each available only while its control is rendered. */
  datatype Move = TypeName(text: string) | SubmitName | Choose(choice: bool) | Effect

  /** The step a move leads to from `step`, given whether the controls are shown. */
  function StepAfter(step: int, cultName: string, showInput: bool, m: Move): int {
    match m
    case TypeName(_) => step
    case SubmitName => if NameInputVisible(step, showInput) && !IsBlank(cultName) then 2 else step
    case Choose(_) => if ChoiceVisible(step, showInput) then 3 else step
    case Effect => step
  }

  class Conversation {
    var step: int
    var cultName: string
    var currentText: string
    var isTyping: bool
    var showInput: bool
    var useAI: Option<bool>

    constructor ()
      ensures step == 0 && cultName == "" && currentText == ""
      ensures !isTyping && !showInput && useAI == None
    {
      step := 0;
      cultName := "";
      currentText := "";
      isTyping := false;
      showInput := false;
      useAI := None;
    }

    /** `typeText`: the line, with its first placeholder replaced by the current name,
        is revealed one character at a time; the delays are left out. */
    method TypeText(text: string)
      modifies this
      ensures currentText == ReplaceFirst(text, Placeholder, cultName)
      ensures !isTyping && showInput
      ensures step == old(step) && cultName == old(cultName) && useAI == old(useAI)
    {
      isTyping := true;
      currentText := "";
      var words := ReplaceFirst(text, Placeholder, cultName);
      var i := 0;
      while i < |words|
        invariant 0 <= i <= |words|
        invariant currentText == words[..i]
        invariant step == old(step) && cultName == old(cultName) && useAI == old(useAI)
      {
        currentText := currentText + [words[i]];
        i := i + 1;
      }
      isTyping := false;
      showInput := true;
    }

    /** The effect that runs when `step` or `cultName` changes: the step's line is
        typed when there is one. */
    method ShowStep()
      modifies this
      ensures 0 <= step < |Conversations| ==>
        currentText == ReplaceFirst(Conversations[step], Placeholder, cultName) && showInput && !isTyping
      ensures !(0 <= step < |Conversations|) ==>
        currentText == old(currentText) && showInput == old(showInput) && isTyping == old(isTyping)
      ensures step == old(step) && cultName == old(cultName) && useAI == old(useAI)
      ensures step == StepAfter(old(step), old(cultName), old(showInput), Effect)
      ensures showInput == (0 <= step < |Conversations| || old(showInput))
    {
      if 0 <= step < |Conversations| {
        showInput := false;
        TypeText(Conversations[step]);
      }
    }

    /** The name input's `onChange`. */
    method SetCultName(text: string)
      modifies this
      ensures cultName == text
      ensures step == old(step) && currentText == old(currentText) && useAI == old(useAI)
      ensures showInput == old(showInput) && isTyping == old(isTyping)
      ensures step == StepAfter(old(step), old(cultName), old(showInput), TypeName(text))
    {
      cultName := text;
    }

    /** `handleNameSubmit`: to the choice step only with a name that is not blank. */
    method HandleNameSubmit()
      modifies this
      ensures step == (if IsBlank(old(cultName)) then old(step) else 2)
      ensures cultName == old(cultName) && currentText == old(currentText) && useAI == old(useAI)
      ensures showInput == old(showInput) && isTyping == old(isTyping)
      ensures NameInputVisible(old(step), old(showInput)) ==>
        step == StepAfter(old(step), old(cultName), old(showInput), SubmitName)
    {
      if !IsBlank(cultName) {
        step := 2;
      }
    }

    /** `handleAIChoice`; `info` is the AI helper's result and `completed` what reaches
        `onComplete`. */
    method HandleAIChoice(choice: bool, info: Option<Concept>) returns (completed: Option<CultForm.FormValues>)
      modifies this
      ensures step == 3 && useAI == Some(choice)
      ensures completed == Completion(choice, cultName, info)
      ensures cultName == old(cultName) && currentText == old(currentText)
      ensures showInput == old(showInput) && isTyping == old(isTyping)
      ensures ChoiceVisible(old(step), old(showInput)) ==>
        step == StepAfter(old(step), old(cultName), old(showInput), Choose(choice))
    {
      useAI := Some(choice);
      step := 3;
      if choice {
        if info.Some? {
          completed := Some(CultForm.FormValues(cultName, info.value.description, info.value.themeColor,
                                                info.value.twitterHandle, "dev",
                                                Some(CustomUrl(cultName))));
        } else {
          completed := None;
        }
      } else {
        completed := Some(CultForm.FormValues(cultName, ManualDescription, "#2D1B69",
                                              Some(TwitterHandle(cultName)), "dev", Some(CustomUrl(cultName))));
      }
    }

    /** Whether the name input is on screen: exactly on step 1 once the line is typed. */
    function NameInputShown(): (shown: bool)
      reads this
      ensures shown <==> showInput && step == 1
    {
      NameInputVisible(step, showInput)
    }

    /** Whether the two choice buttons are on screen: exactly on step 2 once typed. */
    function ChoiceShown(): (shown: bool)
      reads this
      ensures shown <==> showInput && step == 2
    {
      ChoiceVisible(step, showInput)
    }
  }

  function StepsAfter(step: int, cultName: string, showInput: bool, moves: seq<Move>): int
    decreases |moves|
  {
    if moves == [] then step
    else
      var m := moves[0];
      var name' := if m.TypeName? then m.text else cultName;
      var show' := if m.Effect? then 0 <= step < |Conversations| || showInput else showInput;
      StepsAfter(StepAfter(step, cultName, showInput, m), name', show', moves[1..])
  }

  /** Nothing moves the conversation from step 0 to step 1: the name prompt belongs
      to step 1 and the choice to step 2, so from the opening step no sequence of
      rendered controls changes the step. */
  lemma {:induction false} OpeningStepIsFinal(cultName: string, showInput: bool, moves: seq<Move>)
    ensures StepsAfter(0, cultName, showInput, moves) == 0
    decreases |moves|
  {
    if moves != [] {
      var m := moves[0];
      var name' := if m.TypeName? then m.text else cultName;
      var show' := if m.Effect? then true else showInput;
      OpeningStepIsFinal(name', show', moves[1..]);
    }
  }
}

=== FILE: site_url.dfy ===
/** `getURL`: the site's base URL, used for authentication redirects. */
module SiteUrl {
  import opened Common

  const LocalDefault := "http://localhost:8080"

  /** The scheme prefixed to a base: plain HTTP only when the base mentions localhost. */
  function SchemeFor(base: string): (p: string)
    ensures p == "http://" || p == "https://"
    ensures p == "http://" <==> Contains(base, "localhost")
  {
    if Contains(base, "localhost") then "http://" else "https://"
  }

  /** After a scheme is prefixed, the text ends with a slash when the base does, or
      when the base is empty and the scheme's own `//` is last. */
  lemma TrailingSlashOfBase(scheme: string, base: string)
    requires EndsWith(scheme, "/")
    ensures EndsWith(scheme + base, "/") <==> base == [] || EndsWith(base, "/")
  {
    var s := scheme + base;
    if |base| > 0 {
      assert s[|s| - 1..] == base[|base| - 1..];
    } else {
      assert s == scheme;
    }
  }

  /** With neither variable defined, the scheme is prefixed to a base that already
      has one. */
  lemma LocalDefaultUrl()
    ensures SchemeFor(LocalDefault) == "http://"
    ensures !EndsWith("http://" + LocalDefault, "/")
    ensures "http://" + LocalDefault + "/" == "http://http://localhost:8080/"
  {
    assert OccursAt(LocalDefault, "localhost", 7);
    var s := "http://" + LocalDefault;
    assert s[|s| - 1] == '0';
  }

  /** `VITE_SITE_URL ?? VITE_VERCEL_URL ?? 'http://localhost:8080'`, then a scheme,
      then a trailing slash if there is none. The environment values are `None` when
      undefined; an empty string is defined and is kept. */
  method GetURL(siteUrl: Option<string>, vercelUrl: Option<string>) returns (url: string)
    ensures var base := if siteUrl.Some? then siteUrl.value
                        else if vercelUrl.Some? then vercelUrl.value
                        else LocalDefault;
            && (url == SchemeFor(base) + base || url == SchemeFor(base) + base + "/")
            && (url == SchemeFor(base) + base <==> base == [] || EndsWith(base, "/"))
    ensures EndsWith(url, "/")
    ensures siteUrl.None? && vercelUrl.None? ==> url == "http://http://localhost:8080/"
  {
    url := if siteUrl.Some? then siteUrl.value else if vercelUrl.Some? then vercelUrl.value else LocalDefault;
    ghost var base := url;

    url := if Contains(url, "localhost") then "http://" + url else "https://" + url;
    assert url == SchemeFor(base) + base;
    TrailingSlashOfBase(SchemeFor(base), base);

    url := if EndsWith(url, "/") then url else url + "/";

    if siteUrl.None? && vercelUrl.None? {
      LocalDefaultUrl();
    }
  }
}
